=== FILE: README.md ===
# Posts, comments and accounts: a Dafny model

This project models the core of a small social app with posts and
comments: its content store, its account service, its screens' checks and
record builders, and its image-upload service.

- **Content store** (`ContentStore`, `Backend`, `Paging`, `ContentStoreProps`).
  - Posts live under `posts/{id}`. Comments live under `posts/{id}/comments/{id}`.
  - Replies live under `.../comments/{id}/replies/{id}`. Like records live under `.../likes/{userId}`.
  - Legacy creator posts live under `creators/{id}/posts/{id}`.
  - The store is a map from document paths to field maps.
  - Every service call is a pure transition that returns `Ok`/`Err` and the new store.
  - Each backend write takes a "may fail" input.
  - Counter updates (`increment(±1)` in a `try` that only logs) are best effort. Their failure never reaches the caller.
- **Account service** (`AuthService`). It covers:
  - the input checks of `signUp` and `signIn`, in their order;
  - the maps from error codes to messages;
  - the `users/{uid}` document.
- **Root screen** (`App`). It covers:
  - the three field validators, including the exact language of the email regular expression;
  - the `handleAuth` gate that decides whether the service is called;
  - the demo post `loadPosts` falls back to.
- **Post composer** (`CreatePostScreen`) and **comments list** (`CommentsScreen`). They cover:
  - the refusals before any write;
  - the records they hand to the store and what the store keeps of them;
  - the author-only delete control and the like count shown.
- **Storage** (`StorageService`). It covers:
  - the object name of an upload;
  - how one upload settles;
  - how `uploadMultipleImages` summarises a batch.

Inputs that the services get from outside are parameters of the model:
- the backend's answers;
- document ids (`addDoc`);
- server and client clocks;
- the signed-in user;
- the user's answer to the delete confirmation;
- what a transfer does to an image.

## Model

| member | source | states |
|---|---|---|
| Text.Trim | components/CreatePost.js:111 | `trim()` yields the infix of the input between its leading and trailing white space; it starts and ends with a non-space and is empty exactly when the input is blank |
| Text.TrimIdempotent | components/CreatePost.js:135-136 | trimming a trimmed value changes nothing, so the stored text is what the guard checked |
| Text.BeforeFirst | services/authService.js:43 | `split('@')[0]` is the longest prefix without '@', followed by '@' when shorter than the input |
| Text.ParseNatToString | services/storageService.js:16-19 | the decimal rendering of a timestamp reads back as that timestamp |
| Text.NatToStringInjective | services/storageService.js:16-19 | distinct non-negative numbers render to distinct strings |
| Text.IntToStringInjective | services/storageService.js:16-19 | distinct timestamps, negative ones included, render to distinct strings |
| Documents.Spread | services/firestoreService.js:23-30 | an object spread keeps every field of either side, the later side winning on clashes |
| Documents.WithId | services/firestoreService.js:59 | `{ id, ...data }` has the stored fields unchanged and the document id only when no stored field is named "id" |
| Documents.OrElse | services/authService.js:43-44 | a JavaScript "or" on a field gives the field when it is present and truthy, otherwise the fallback |
| Documents.Bump | services/firestoreService.js:359-361 | `increment(delta)` sets the field to its old number (0 when absent or not a number) plus delta and leaves every other field alone |
| Backend.AdjustCounter | services/firestoreService.js:356-365 | a counter helper changes only its target; when the write lands on an existing document it adjusts that one field; otherwise the store is as it was and no error escapes |
| Paging.PrecedesTransitive | services/firestoreService.js:88 | the listing order (createdAt, then id, in the query's direction) is transitive |
| Paging.PrecedesTotal | services/firestoreService.js:88 | any two distinct documents are ordered one way or the other |
| Paging.Query | services/firestoreService.js:84-106 | the query returns a page: at most `limit` eligible ids, strictly ordered, after the cursor, leaving out only ids after its last when full |
| Paging.PageUnique | services/firestoreService.js:84-106 | two pages for the same store, order, limit and cursor are the same page |
| Paging.ConsecutivePages | services/firestoreService.js:92-94 | a full page followed by the page after its last document is the page of both sizes together; the two share no document |
| Paging.AfterLastPage | services/firestoreService.js:92-94 | after a page that is not full, the next page is empty |
| Paging.List | services/firestoreService.js:84-106 | a non-positive limit fails with the SDK's message, a failed read fails with its message, otherwise the documents of the page are returned in page order as `{ id, ...data }` |
| ContentStore.CreatePost | services/firestoreService.js:21-35 | a failed write leaves the store; otherwise only `posts/{newId}` changes, holding every `postData` field except those the store sets, with `authorId` the argument, zero counters and the server time |
| ContentStore.CreateCreatorPost | services/firestoreService.js:38-51 | like `createPost` under `creators/{id}/posts`, and `authorId` present only if `postData` has it |
| ContentStore.GetPost | services/firestoreService.js:54-66 | a failed read reports its error, a missing post gives "Post not found", otherwise the stored fields plus the id |
| ContentStore.GetCreatorPost | services/firestoreService.js:69-81 | the same for a creator post |
| ContentStore.UpdatePost | services/firestoreService.js:134-145 | only the post changes: the given fields take their values, `updatedAt` is re-stamped, every other field stays; a missing post fails and changes nothing |
| ContentStore.UpdateCreatorPost | services/firestoreService.js:158-169 | the same for a creator post |
| ContentStore.DeletePost | services/firestoreService.js:148-155 | only the post document goes; its comments, replies and likes stay |
| ContentStore.DeleteCreatorPost | services/firestoreService.js:172-179 | only the creator post document goes |
| ContentStore.CreateComment | services/firestoreService.js:182-199 | a failed comment write changes nothing; otherwise the comment is stored with zero counters, the post's `commentsCount` is adjusted by +1 as the counter write allows, and the answer is `Ok(newId)` even when that write fails |
| ContentStore.UpdateComment | services/firestoreService.js:225-236 | only the comment changes, merged like `updatePost` |
| ContentStore.DeleteComment | services/firestoreService.js:238-249 | the comment is gone, only it and its post change, and `commentsCount` is adjusted by -1 with no floor |
| ContentStore.CreateReply | services/firestoreService.js:252-268 | only the reply and its comment change; the comment's `repliesCount` is adjusted by +1 |
| ContentStore.LikePostAsWritten | services/firestoreService.js:295-310 | as declared, the like-record write is the failing first step of `LikePost`, so every call fails with the engine's error, the counter step is never reached and the store stays as it was |
| ContentStore.LikeCommentAsWritten | services/firestoreService.js:325-340 | the same for `likeComment` |
| ContentStore.LikePost | services/firestoreService.js:295-310 | with `setDoc` in scope: a landed call writes the like record under the user id, changes nothing but it and the post, and adjusts `likesCount` by +1; a failed record write changes nothing |
| ContentStore.UnlikePost | services/firestoreService.js:312-323 | a landed call removes the like record (present or not) and adjusts `likesCount` by -1 |
| ContentStore.LikeComment | services/firestoreService.js:325-340 | `LikePost` for a comment |
| ContentStore.UnlikeComment | services/firestoreService.js:342-353 | `UnlikePost` for a comment |
| ContentStore.GetAllPosts | services/firestoreService.js:84-106 | the default limit is 10; the result is the newest-first page of posts, or the limit or read error |
| ContentStore.GetCreatorPosts | services/firestoreService.js:109-131 | the same for one creator's posts |
| ContentStore.GetComments | services/firestoreService.js:201-223 | the default limit is 20; the newest-first page of a post's comments |
| ContentStore.GetReplies | services/firestoreService.js:270-292 | the default limit is 10; the oldest-first page of a comment's replies |
| ContentStoreProps.ApplyFrame | services/firestoreService.js:21-353 | no write operation changes any document outside its own and its counted parent |
| ContentStoreProps.TreesSeparate | services/firestoreService.js:38-179 | creator-post calls never touch `posts/...`, and the other calls never touch `creators/...` |
| ContentStoreProps.LikePostEffect | services/firestoreService.js:295-310 | a landed like adds exactly the user to the likers and one to the count |
| ContentStoreProps.UnlikePostEffect | services/firestoreService.js:312-323 | a landed unlike removes exactly the user and takes one from the count |
| ContentStoreProps.LikeTwiceCountsTwice | services/firestoreService.js:295-310 | liking twice leaves one membership but counts two |
| ContentStoreProps.UnlikeWithoutLike | services/firestoreService.js:312-323 | unliking without a like leaves the likers and still counts one fewer |
| ContentStoreProps.LikeCommentEffect | services/firestoreService.js:325-340 | a landed comment like adds exactly the user and one to the comment's count |
| ContentStoreProps.UnlikeCommentEffect | services/firestoreService.js:342-353 | a landed comment unlike removes exactly the user and takes one from the count |
| ContentStoreProps.LostCounterWrite | services/firestoreService.js:378-387 | when the counter write fails, the like is recorded and reported `Ok` but not counted |
| ContentStoreProps.LikePostAsWrittenNeverLikes | services/firestoreService.js:298 | as declared, a like neither records the user nor counts, where the call with `setDoc` does both |
| ContentStoreProps.LikeCommentAsWrittenNeverLikes | services/firestoreService.js:328 | the same for comment likes |
| ContentStoreProps.CreateCommentAddsOne | services/firestoreService.js:182-199 | a comment under a fresh id adds exactly that id to the post's comments and one to `commentsCount` |
| ContentStoreProps.DeleteCommentKeepsReplies | services/firestoreService.js:238-249 | deleting a comment removes only its id; its replies stay unchanged; `commentsCount` drops by one |
| ContentStoreProps.RepliesCountMonotone | services/firestoreService.js:355-431 | no operation lowers a surviving comment's `repliesCount` (see Left out for the two excluded cases) |
| ContentStoreProps.PostWithComment | services/firestoreService.js:182-199 | a new post with one comment counts exactly one comment |
| ContentStoreProps.FirstReply | services/firestoreService.js:252-268 | a first reply becomes the comment's only reply; the post and its comments are untouched |
| ContentStoreProps.OnlyReplyListed | services/firestoreService.js:270-292 | when one stamped reply is stored, the reply listing is exactly that reply |
| ContentStoreProps.OrphanedReply | services/firestoreService.js:238-249 | post, comment, reply, then delete the comment: the post counts 0 comments, but the reply stays and is still listed |
| AuthService.SignUpErrorMessage | services/authService.js:54-63 | each of the four sign-up codes gets its fixed message; any other error keeps its own message |
| AuthService.SignInErrorMessage | services/authService.js:83-94 | each of the five sign-in codes gets its fixed message; any other error keeps its own message |
| AuthService.InvalidEmailSameMessage | services/authService.js:57-58 | both maps give "auth/invalid-email" the same message |
| AuthService.ValidateSignUp | services/authService.js:17-27 | the input passes exactly when both values are present, the password has at least 6 characters and the email has an '@'; the presence check comes first, then length, then '@' |
| AuthService.ValidateSignIn | services/authService.js:73-75 | sign-in refuses only a missing email or password |
| AuthService.UserDocument | services/authService.js:40-47 | the user document has the computed keys plus those of `userData`; `userData` wins every clash; the defaults are the uid, the email, `displayName`, else `name`, else the email's local part, role "user" and the client time |
| AuthService.DefaultDisplayName | services/authService.js:43 | without a name, the profile is called after the part of the email before its first '@' |
| AuthService.SignUp | services/authService.js:14-67 | a failed check answers its message with no backend call; otherwise the backend is called and a refusal is translated; a failed profile update (when a name is given) or a failed document write, after the account exists, answers the translated error with the account left in place and no user document; success needs the account, the profile update (when a name is given) and the user document to land, and then returns the user and writes `UserDocument` |
| AuthService.SignUpLeavesAccountOnLaterFailure | services/authService.js:29-47 | a failure after the account exists is reported but the account is not removed |
| AuthService.SignIn | services/authService.js:70-98 | missing values are refused with no backend call; otherwise the backend's user, or its error translated |
| AuthService.SignInSkipsLengthRule | services/authService.js:73-77 | a one-character password reaches the sign-in backend while sign-up refuses it |
| Session.AuthorName | components/CreatePost.js:138 | the display name when set and non-empty, otherwise the email |
| App.MatchesEmail | App.js:84 | the scan accepts exactly the strings of `^[^\s@]+@[^\s@]+\.[^\s@]+$` |
| App.PatternHasAt | App.js:84 | every accepted address holds an '@' and is not empty |
| App.ValidateEmail | App.js:83-92 | "Email is required" for "", the invalid message when the pattern fails, and "" exactly when it matches |
| App.ValidatePassword | App.js:94-102 | "" exactly when the password has at least 6 characters; the required message for "", the length message otherwise |
| App.ValidateDisplayName | App.js:104-112 | "" exactly when the name has at least 2 characters; the required message for "", the length message otherwise |
| App.HandleAuth | App.js:121-152 | the field errors are the validators' messages, the display name is checked only when signing up, and a call is made exactly when all are empty; otherwise "Please fix the errors above"; sign-up sends the display name with role "user" |
| App.GateImpliesServiceChecks | App.js:126-151 | input that passes the screen's checks also passes the service's own |
| App.FormSignUpProfile | App.js:146-149 | a sign-up from the form names the profile and the user document after the typed display name, with role "user" |
| App.AfterAuth | App.js:154-163 | success clears the form and shows a success alert; failure shows the service's message as the general error |
| App.LoadPosts | App.js:50-80 | a failed listing shows only the demo post; otherwise the newest page of 20 posts as returned |
| App.DemoPostShape | App.js:57-65 | the demo post has the id "demo-post-1" and zero counters |
| StorageService.StoragePathInjective | services/storageService.js:16-19 | for one user and one post id, uploads started at different times get different object names |
| StorageService.StoragePathSegments | services/storageService.js:16-19 | the object name splits at '/' into "posts", the user id, the post id when one is given, and `{timestamp}.jpg` |
| StorageService.UploadImage | services/storageService.js:13-61 | a failed file read resolves to an error result; a failed transfer or URL request rejects; a delivered upload resolves to its URL and the object name |
| StorageService.UploadImageWithProgress | services/storageService.js:64-106 | a delivered upload resolves to its URL |
| StorageService.UploadsAgree | services/storageService.js:66-69 | both upload calls name the object alike and settle alike for the same inputs |
| StorageService.SettleAll | services/storageService.js:133-135 | the i-th upload of a batch is filed under post id `{postId}_{i}`; a delivered transfer resolves with its URL and that name, a failed read resolves with its error, and a failed send or URL request rejects |
| StorageService.FirstRejection | services/storageService.js:137 | `Promise.all` rejects exactly when some upload rejected, and with such an upload's message |
| StorageService.KeepPartitions | services/storageService.js:138-139 | the successes and failures together are the results, as a multiset and by count |
| StorageService.KeepNonEmpty | services/storageService.js:142 | the successes are non-empty exactly when some result succeeded |
| StorageService.UploadMultipleImages | services/storageService.js:131-150 | any rejection turns the batch into its error. Otherwise: `total` is the number of images; `successful` and `failed` split them; `success` holds exactly when some upload was delivered; `successful` and `failed` are exactly the resolved results that succeeded and failed, in order; every success carries the URL of a delivered upload and is filed under its `{postId}_{i}`; every failure carries the error of an upload whose read failed |
| CreatePostScreen.UploadPicked | components/CreatePost.js:82-107 | the composer's upload gives the URL, or every kind of failure prefixed with "Failed to upload image: " |
| CreatePostScreen.UploadStep | components/CreatePost.js:126-131 | no image gives a null URL; a picked image gives its URL or its upload error |
| CreatePostScreen.HandleCreatePost | components/CreatePost.js:110-172 | blank title or content is refused first, then a missing user, both before any upload or write. A failed upload aborts with its message. A failed store write, after the upload (if any) delivered, shows the store's error unprefixed and leaves the store as it was. A post is created exactly when all checks pass, the upload (if any) delivers and the write lands; the stored post is then the composed record with the store's time |
| CreatePostScreen.SubmitPost | components/CreatePost.js:134-165 | a failed write shows its error; a landed one reports success and stores exactly the composed post |
| CreatePostScreen.ComposedPostStored | components/CreatePost.js:134-146 | after the store's overlay, the post holds the trimmed texts, the author's id, name and email, the image URL or null, zero counters including `viewsCount`, and the server time |
| CreatePostScreen.GuardsBeforeUpload | components/CreatePost.js:111-120 | a refused post starts no upload and writes nothing |
| CommentsScreen.OverlayOfComment | components/CommentsSection.js:39-46 | the stored comment is `commentData` with zero counters and the store's time |
| CommentsScreen.HandleAddComment | components/CommentsSection.js:32-54 | blank text or no user is refused with no store call. A failed write shows its error. Otherwise the list reloads and the stored comment has the trimmed text and the author's id, name and email, with the post counted as `createComment` allows |
| CommentsScreen.HandleLikeComment | components/CommentsSection.js:56-68 | no user is refused with no store call; otherwise the like is recorded under the user's id, or its error shown |
| CommentsScreen.HandleDeleteComment | components/CommentsSection.js:70-95 | no user is refused; "Cancel" changes nothing; only "Delete" removes the comment (or shows its error) |
| CommentsScreen.AuthorSeesDelete | components/CommentsSection.js:113 | on a listed comment the delete control shows exactly for the signed-in user whose uid is its author's |
| CommentsScreen.DeleteNotLimitedToAuthor | components/CommentsSection.js:70-95 | the author rule is only in the list: a confirmed delete by another user removes the comment |
| CommentsScreen.DisplayedLikesIsCounter | components/CommentsSection.js:111 | the shown like count is the counter's number, 0 when the field is absent |
| CommentsScreen.LikeShowsOneMore | components/CommentsSection.js:111 | after a landed like, the shown count is one more than before |
| CommentsScreen.FreshCommentShowsNoLikes | components/CommentsSection.js:111 | a new comment shows 0 likes |

## Left out

- UpdatePost: field values are scalars only (`Value` has no maps or arrays). Each `updateData` key is read as a plain top-level field name, not as a dot-separated field path, so `"stats.views"` is stored as one field. The SDK's refusal of invalid field paths (an empty key, `"a..b"`, or a key holding `~ * / [ ]`) is not modelled; such a call answers `Ok` here, where the source's catch answers `success: false`.
- UpdateCreatorPost: the same as `UpdatePost`: plain field names, scalar values, and no refusal of invalid field paths.
- UpdateComment: the same as `UpdatePost`: plain field names, scalar values, and no refusal of invalid field paths.
- Ids are taken to be single path segments. Post, comment, reply, creator and user ids are assumed to contain no '/'. In the SDK, `doc(db, 'posts', postId)` joins its arguments and splits them again at '/', so an id holding '/' would address another document or be refused. The model answers such an id as a plain key, for example "Post not found".
- The Firebase SDK is not modelled. Its behaviour is modelled by `Backend`:
  - `addDoc` writes under the given id;
  - `setDoc` replaces the document;
  - `updateDoc` fails on a missing document;
  - `deleteDoc` of a missing document succeeds;
  - `increment` starts from 0 on an absent or non-numeric field.
- Ids, clocks, the signed-in user and every backend answer are inputs. Fresh-id assumptions appear only as lemma hypotheses.
- Asynchrony, listeners and loading flags are left out. Each call is one sequential step.
- Concurrent increments are left out. They are the backend's concern.
- Upload progress is left out. It is a floating-point value that is only reported.
- `signOut`, `onAuthStateChanged`, `getCurrentUser`, `resetPassword`, `updateUserProfile` and `getUserData` are not modelled. The current user is a parameter instead.
- `deleteImage` and `getImageMetadata` are not part of this model. They are one SDK call each, with no logic of their own.
- Rendering, styles, image pickers, permissions, and alert titles other than the messages are left out. The firebase configuration files are not part of this model.
- Lengths are counted in characters, not UTF-16 code units. This matters only for characters outside the Basic Multilingual Plane.
- Numbers are integers. `${timestamp}` is rendered as a decimal integer.
- The listing order assumes every listed `createdAt` is a timestamp. Documents without one are not listed. The backend's order between value types is not modelled.
- `Promise.all` reports the rejection that happens first. The settle order is not modelled.
- `handleAuth`'s catch ("An unexpected error occurred") is left out: the service calls it wraps never throw. `uploadMultipleImages`' catch is reachable, because an upload promise can reject; it is modelled as `BatchFailed`.
- `loadPosts` shows the demo post only when the listing fails, which is what the code does. An empty listing is shown empty, despite the comment beside the fallback.
- ContentStoreProps.RepliesCountMonotone: the lemma excludes two cases where the count can drop:
  - an `updateComment` whose data sets `repliesCount`;
  - a `createComment` whose assigned id collides with an existing comment.
- StorageService.FirstRejection: states only that the reported message belongs to some rejected upload. Which one `Promise.all` reports depends on the settle order.
- StorageService.UploadImageWithProgress: its own contract states only the delivered case. `StorageService.UploadsAgree` carries the rest by equating it with `UploadImage`.
- App.AfterAuth: states that a success alert is shown, not its wording.
- `updateComment` and the creator-post update and delete are modelled as well. `ContentStoreProps.Apply` covers every writing call.

## Findings

| source | as written | input that shows it | evidently intended | confidence | as-written member | corrected member |
|---|---|---|---|---|---|---|
| services/firestoreService.js:298 | `likePost` calls `setDoc`, which the import list at lines 1-16 does not bring in. The call throws a ReferenceError inside the `try`, so every like answers `success: false` and writes nothing | any `likePost(postId, userId)` | write `posts/{postId}/likes/{userId}`, then add 1 to `likesCount` | not executed | ContentStoreProps.LikePostAsWrittenNeverLikes | ContentStore.LikePost |
| services/firestoreService.js:328 | `likeComment` has the same undeclared `setDoc` | any `likeComment(postId, commentId, userId)` | write the comment's like record, then add 1 to its `likesCount` | not executed | ContentStoreProps.LikeCommentAsWrittenNeverLikes | ContentStore.LikeComment |

The rest of the model uses the corrected calls. In particular, `CommentsScreen.HandleLikeComment` uses `ContentStore.LikeComment`.

=== FILE: app.dfy ===
/** The root screen: the sign-in/sign-up form checks, the gate that decides
    whether the account service is called at all, what the screen reports
    afterwards, and the post list with its demo fallback. */
module App {
  import opened Wrappers
  import opened Text
  import opened Documents
  import opened Backend
  import opened Paging
  import opened ContentStore
  import opened AuthService

  const EmailRequired := "Email is required"
  const EmailInvalid := "Please enter a valid email address"
  const PasswordRequired := "Password is required"
  const PasswordShort := "Password must be at least 6 characters long"
  const DisplayNameRequired := "Display name is required"
  const DisplayNameShort := "Display name must be at least 2 characters long"
  const FixErrors := "Please fix the errors above"
  const MinDisplayNameLength := 2

  // ---- The email pattern ----

  /** A character the pattern's `[^\s@]` accepts. */
  predicate Plain(c: char) { !IsJsSpace(c) && c != '@' }

  /** The strings `/^[^\s@]+@[^\s@]+\.[^\s@]+$/` accepts: one '@' at a
      position `a > 0`, a '.' at some `b` with at least one character
      between it and the '@' and at least one after it, and every other
      character outside white space and '@'. */
  ghost predicate EmailPattern(s: string) {
    exists a, b ::
      && 0 < a && a + 1 < b < |s| - 1
      && s[a] == '@' && s[b] == '.'
      && forall k :: 0 <= k < |s| && k != a ==> Plain(s[k])
  }

  /** One left-to-right pass: remember the '@' and the first '.' that can
      end the middle run; stop at white space or a second '@'. */
  method MatchesEmail(s: string) returns (ok: bool)
    ensures ok <==> EmailPattern(s)
  {
    IsJsSpaceIff('@');
    IsJsSpaceIff('.');
    var at := -1;
    var dot := -1;
    var i := 0;
    while i < |s|
      invariant 0 <= i <= |s|
      invariant -1 <= at < i
      invariant at >= 0 ==> s[at] == '@'
      invariant forall k :: 0 <= k < i && k != at ==> Plain(s[k])
      invariant at == -1 ==> dot == -1
      invariant dot >= 0 ==> at + 2 <= dot < i && s[dot] == '.'
      invariant dot >= 0 ==> forall k :: at + 2 <= k < dot ==> s[k] != '.'
      invariant at >= 0 && dot == -1 ==> forall k :: at + 2 <= k < i ==> s[k] != '.'
    {
      var c := s[i];
      if IsJsSpace(c) || (c == '@' && at >= 0) {
        ok := false;
        assert !Plain(s[i]);
        assert at >= 0 ==> !Plain(s[at]);
        assert !EmailPattern(s);
        return;
      }
      if c == '@' {
        at := i;
      } else if c == '.' && at >= 0 && dot == -1 && at + 2 <= i {
        dot := i;
      }
      i := i + 1;
    }
    ok := at > 0 && dot >= 0 && dot < |s| - 1;
    if ok {
      assert EmailPattern(s) by {
        assert 0 < at && at + 1 < dot < |s| - 1 && s[at] == '@' && s[dot] == '.';
      }
    } else {
      assert forall k :: 0 <= k < |s| && s[k] == '@' ==> k == at;
      assert !EmailPattern(s);
    }
  }

  /** A string the pattern accepts contains an '@'. */
  lemma PatternHasAt(s: string)
    requires EmailPattern(s)
    ensures '@' in s && s != ""
  {
    var a, b :| 0 < a && a + 1 < b < |s| - 1 && s[a] == '@' && s[b] == '.'
                && forall k :: 0 <= k < |s| && k != a ==> Plain(s[k]);
    assert s[a] == '@';
  }

  // ---- Field checks ----

  /** The message `validateEmail` shows for `email`. */
  ghost function EmailMessage(email: string): string {
    if email == "" then EmailRequired
    else if !EmailPattern(email) then EmailInvalid
    else ""
  }

  /** `validateEmail(email)`. */
  method ValidateEmail(email: string) returns (err: string)
    ensures err == EmailMessage(email)
    ensures err == "" <==> EmailPattern(email)
  {
    if email == "" {
      err := EmailRequired;
      if EmailPattern(email) { PatternHasAt(email); }
      return;
    }
    var ok := MatchesEmail(email);
    err := if ok then "" else EmailInvalid;
  }

  /** `validatePassword(password)`. */
  function ValidatePassword(password: string): (err: string)
    ensures err == "" <==> |password| >= MinPasswordLength
    ensures password == "" ==> err == PasswordRequired
    ensures 0 < |password| < MinPasswordLength ==> err == PasswordShort
  {
    if password == "" then PasswordRequired
    else if |password| < MinPasswordLength then PasswordShort
    else ""
  }

  /** `validateDisplayName(name)`. */
  function ValidateDisplayName(name: string): (err: string)
    ensures err == "" <==> |name| >= MinDisplayNameLength
    ensures name == "" ==> err == DisplayNameRequired
    ensures 0 < |name| < MinDisplayNameLength ==> err == DisplayNameShort
  {
    if name == "" then DisplayNameRequired
    else if |name| < MinDisplayNameLength then DisplayNameShort
    else ""
  }

  // ---- The auth gate ----

  /** The form as `handleAuth` reads it. */
  datatype AuthForm = AuthForm(isSignUp: bool, email: string, password: string, displayName: string)

  /** The call `handleAuth` makes to the account service. */
  datatype AuthRequest =
    | SignUpRequest(email: string, password: string, userData: Doc)
    | SignInRequest(email: string, password: string)

  /** The field errors `handleAuth` shows, the general error, and the call
      it goes on to make (`None` when the form is refused). */
  datatype Gate = Gate(emailError: string, passwordError: string, displayNameError: string,
                       generalError: string, request: Option<AuthRequest>)

  /** The profile data the sign-up form hands to the service. */
  function SignUpData(displayName: string): Doc {
    map["displayName" := Str(displayName), "role" := Str("user")]
  }

  /** The validation part of `handleAuth`. */
  method HandleAuth(form: AuthForm) returns (g: Gate)
    ensures g.emailError == EmailMessage(form.email)
    ensures g.passwordError == ValidatePassword(form.password)
    ensures g.displayNameError == (if form.isSignUp then ValidateDisplayName(form.displayName) else "")
    ensures g.request.Some? <==> g.emailError == "" && g.passwordError == "" && g.displayNameError == ""
    ensures g.request.None? ==> g.generalError == FixErrors
    ensures g.request.Some? ==> g.generalError == ""
    ensures g.request.Some? && form.isSignUp ==>
      g.request.value == SignUpRequest(form.email, form.password, SignUpData(form.displayName))
    ensures g.request.Some? && !form.isSignUp ==>
      g.request.value == SignInRequest(form.email, form.password)
  {
    var emailErr := ValidateEmail(form.email);
    var passwordErr := ValidatePassword(form.password);
    var nameErr := if form.isSignUp then ValidateDisplayName(form.displayName) else "";
    if emailErr != "" || passwordErr != "" || nameErr != "" {
      return Gate(emailErr, passwordErr, nameErr, FixErrors, None);
    }
    var request := if form.isSignUp then SignUpRequest(form.email, form.password, SignUpData(form.displayName))
                   else SignInRequest(form.email, form.password);
    g := Gate(emailErr, passwordErr, nameErr, "", Some(request));
  }

  /** Whatever passes the screen's gate also passes the service's own
      checks, so the service's validation messages never reach this
      screen. */
  lemma GateImpliesServiceChecks(form: AuthForm)
    requires EmailMessage(form.email) == "" && ValidatePassword(form.password) == ""
    ensures ValidateSignUp(form.email, form.password).None?
    ensures ValidateSignIn(form.email, form.password).None?
  {
    assert form.email != "";
    PatternHasAt(form.email);
  }

  /** A sign-up through the form names the profile after the form's display
      name and stores the role "user". */
  lemma FormSignUpProfile(form: AuthForm, user: AuthUser, now: int)
    requires form.isSignUp && ValidateDisplayName(form.displayName) == ""
    ensures ProfileName(SignUpData(form.displayName)) == Some(Str(form.displayName))
    ensures UserDocument(user, SignUpData(form.displayName), now)["displayName"] == Str(form.displayName)
    ensures UserDocument(user, SignUpData(form.displayName), now)["role"] == Str("user")
  {
  }

  /** What the screen shows once the service has answered. */
  datatype AuthFeedback = AuthFeedback(generalError: string, alert: Option<string>, formCleared: bool)

  function AfterAuth(isSignUp: bool, result: Result<AuthUser>): (f: AuthFeedback)
    ensures result.Ok? ==> f.formCleared && f.generalError == "" && f.alert.Some?
    ensures result.Err? ==> f == AuthFeedback(result.error, None, false)
  {
    if result.Ok? then
      AuthFeedback("", Some(if isSignUp then "Account created successfully!" else "Signed in successfully!"), true)
    else AuthFeedback(result.error, None, false)
  }

  // ---- The post list ----

  const DemoPostId := "demo-post-1"

  /** The post shown when the posts cannot be loaded. */
  function DemoPost(now: int): Doc {
    map[
      "id" := Str(DemoPostId),
      "title" := Str("Welcome to our platform!"),
      "content" := Str("This is a demo post to showcase the comments functionality."),
      "authorName" := Str("Demo Creator"),
      "createdAt" := Stamp(now),
      "likesCount" := Num(0),
      "commentsCount" := Num(0)
    ]
  }

  /** The page size `loadPosts` asks for. */
  const FeedSize := 20

  /** `loadPosts()`: the newest posts, or the demo post alone when the
      listing fails. An empty listing is shown as it is. */
  method LoadPosts(s: Store, fault: Fault, now: int) returns (posts: seq<Doc>)
    ensures fault.Some? ==> posts == [DemoPost(now)]
    ensures fault.None? ==> exists ids ::
      IsPage(s, PostsCollection(), Desc, FeedSize, None, ids) && Delivers(s, PostsCollection(), ids, posts)
  {
    var r, ids := GetAllPosts(s, Some(FeedSize), None, fault);
    if r.Ok? {
      posts := r.value;
    } else {
      posts := [DemoPost(now)];
    }
  }

  /** The demo post carries zero counters and the fixed id. */
  lemma DemoPostShape(now: int)
    ensures DemoPost(now)["id"] == Str(DemoPostId)
    ensures DemoPost(now)["likesCount"] == Num(0) && DemoPost(now)["commentsCount"] == Num(0)
  {
  }
}

=== FILE: auth_service.dfy ===
/** The account service: the input checks of sign-up and sign-in, the
    translation of the authentication backend's error codes into messages,
    and the user profile document written at sign-up. The backend's answers
    (the created or signed-in user, or an error with a code) are inputs. */
module AuthService {
  import opened Wrappers
  import opened Text
  import opened Documents

  /** An error thrown by the authentication backend. */
  datatype AuthError = AuthError(code: string, message: string)

  /** The authenticated user as the backend returns it. */
  datatype AuthUser = AuthUser(uid: string, email: string)

  /** What the backend does with one request. */
  datatype Attempt<+T> = Granted(value: T) | Refused(error: AuthError)

  const CredentialsRequired := "Email and password are required"
  const PasswordTooShort := "Password must be at least 6 characters long"
  const EmailWithoutAt := "Please enter a valid email address"
  const MinPasswordLength := 6

  // ---- Error messages ----

  /** The messages `signUp` substitutes for known error codes. */
  const SignUpMessages: map<string, string> := map[
    "auth/email-already-in-use" := "This email is already registered. Please use a different email or sign in.",
    "auth/invalid-email" := "Please enter a valid email address.",
    "auth/weak-password" := "Password is too weak. Please choose a stronger password.",
    "auth/operation-not-allowed" :=
      "Email/password authentication is not enabled. Please enable it in Firebase Console: Authentication → Sign-in method → Email/Password → Enable"
  ]

  /** The messages `signIn` substitutes for known error codes. */
  const SignInMessages: map<string, string> := map[
    "auth/user-not-found" := "No account found with this email address. Please sign up first.",
    "auth/wrong-password" := "Incorrect password. Please try again.",
    "auth/invalid-email" := "Please enter a valid email address.",
    "auth/user-disabled" := "This account has been disabled. Please contact support.",
    "auth/too-many-requests" := "Too many failed attempts. Please try again later."
  ]

  /** The `signUp` catch block: a known code gets its fixed message, any
      other error passes its own message through. */
  function SignUpErrorMessage(e: AuthError): (m: string)
    ensures e.code in SignUpMessages ==> m == SignUpMessages[e.code]
    ensures e.code !in SignUpMessages ==> m == e.message
  {
    if e.code == "auth/email-already-in-use" then
      "This email is already registered. Please use a different email or sign in."
    else if e.code == "auth/invalid-email" then
      "Please enter a valid email address."
    else if e.code == "auth/weak-password" then
      "Password is too weak. Please choose a stronger password."
    else if e.code == "auth/operation-not-allowed" then
      "Email/password authentication is not enabled. Please enable it in Firebase Console: Authentication → Sign-in method → Email/Password → Enable"
    else e.message
  }

  /** The `signIn` catch block. */
  function SignInErrorMessage(e: AuthError): (m: string)
    ensures e.code in SignInMessages ==> m == SignInMessages[e.code]
    ensures e.code !in SignInMessages ==> m == e.message
  {
    if e.code == "auth/user-not-found" then
      "No account found with this email address. Please sign up first."
    else if e.code == "auth/wrong-password" then
      "Incorrect password. Please try again."
    else if e.code == "auth/invalid-email" then
      "Please enter a valid email address."
    else if e.code == "auth/user-disabled" then
      "This account has been disabled. Please contact support."
    else if e.code == "auth/too-many-requests" then
      "Too many failed attempts. Please try again later."
    else e.message
  }

  /** The two maps agree on the one code they share. */
  lemma InvalidEmailSameMessage(message: string)
    ensures SignUpErrorMessage(AuthError("auth/invalid-email", message))
         == SignInErrorMessage(AuthError("auth/invalid-email", message))
         == "Please enter a valid email address."
  {
  }

  // ---- Input checks ----

  /** The checks `signUp` makes before calling the backend, in order: both
      values present, then the password length, then an '@' in the email. */
  function ValidateSignUp(email: string, password: string): (r: Option<string>)
    ensures r.None? <==> email != "" && |password| >= MinPasswordLength && '@' in email
    ensures (email == "" || password == "") ==> r == Some(CredentialsRequired)
    ensures email != "" && password != "" && |password| < MinPasswordLength ==> r == Some(PasswordTooShort)
    ensures email != "" && |password| >= MinPasswordLength && '@' !in email ==> r == Some(EmailWithoutAt)
  {
    if email == "" || password == "" then Some(CredentialsRequired)
    else if |password| < MinPasswordLength then Some(PasswordTooShort)
    else if '@' !in email then Some(EmailWithoutAt)
    else None
  }

  /** `signIn` only checks that both values are present. */
  function ValidateSignIn(email: string, password: string): (r: Option<string>)
    ensures r.None? <==> email != "" && password != ""
    ensures r.Some? ==> r.value == CredentialsRequired
  {
    if email == "" || password == "" then Some(CredentialsRequired) else None
  }

  // ---- The user document ----

  /** The name `signUp` gives the account's profile, when it updates it:
      `displayName || name`. */
  function ProfileName(userData: Doc): Option<Value> {
    if "displayName" in userData && Truthy(userData["displayName"]) then Some(userData["displayName"])
    else if "name" in userData && Truthy(userData["name"]) then Some(userData["name"])
    else None
  }

  /** The document stored at `users/{uid}`: the computed fields, then every
      field of `userData` on top of them. */
  function UserDocument(user: AuthUser, userData: Doc, now: int): (d: Doc)
    ensures d.Keys == userData.Keys + {"uid", "email", "displayName", "role", "createdAt"}
    ensures forall f :: f in userData ==> d[f] == userData[f]
    ensures "uid" !in userData ==> d["uid"] == Str(user.uid)
    ensures "email" !in userData ==> d["email"] == Str(user.email)
    ensures "createdAt" !in userData ==> d["createdAt"] == Stamp(now)
    ensures "displayName" !in userData && ProfileName(userData).Some? ==>
              d["displayName"] == ProfileName(userData).value
    ensures "displayName" !in userData && ProfileName(userData).None? ==>
              d["displayName"] == Str(BeforeFirst(user.email, '@'))
    ensures "role" !in userData ==> d["role"] == Str("user")
  {
    var computed := map[
      "uid" := Str(user.uid),
      "email" := Str(user.email),
      "displayName" := OrElse(userData, "displayName", OrElse(userData, "name", Str(BeforeFirst(user.email, '@')))),
      "role" := OrElse(userData, "role", Str("user")),
      "createdAt" := Stamp(now)
    ];
    Spread(computed, userData)
  }

  /** Without a name of its own, the profile is named after the part of the
      email before its first '@'. */
  lemma DefaultDisplayName(uid: string, local: string, domain: string, userData: Doc, now: int)
    requires '@' !in local
    requires "displayName" !in userData && "name" !in userData
    ensures UserDocument(AuthUser(uid, local + "@" + domain), userData, now)["displayName"] == Str(local)
  {
    BeforeFirstOf(local, '@', domain);
  }

  // ---- Sign-up and sign-in ----

  /** What one `signUp` call did: its answer, whether it reached the
      backend, whether an account now exists, the profile name it set and
      the user document it wrote. */
  datatype SignUpRun = SignUpRun(result: Result<AuthUser>, calledBackend: bool, accountCreated: bool,
                                 profileName: Option<Value>, userDoc: Option<Doc>)

  /** `signUp(email, password, userData)`. `account` is the backend's answer
      to the account creation, `profileFault` and `docFault` the errors the
      profile update and the document write may throw; each error goes
      through the same catch block. */
  function SignUp(email: string, password: string, userData: Doc, account: Attempt<AuthUser>,
                  profileFault: Option<AuthError>, docFault: Option<AuthError>, now: int): (r: SignUpRun)
    ensures ValidateSignUp(email, password).Some? ==>
      r == SignUpRun(Err(ValidateSignUp(email, password).value), false, false, None, None)
    ensures ValidateSignUp(email, password).None? ==> r.calledBackend
    ensures ValidateSignUp(email, password).None? && account.Refused? ==>
      r == SignUpRun(Err(SignUpErrorMessage(account.error)), true, false, None, None)
    ensures ValidateSignUp(email, password).None? && account.Granted? && ProfileName(userData).Some?
            && profileFault.Some? ==>
      r == SignUpRun(Err(SignUpErrorMessage(profileFault.value)), true, true, None, None)
    ensures ValidateSignUp(email, password).None? && account.Granted?
            && (ProfileName(userData).Some? ==> profileFault.None?) && docFault.Some? ==>
      r == SignUpRun(Err(SignUpErrorMessage(docFault.value)), true, true, ProfileName(userData), None)
    ensures r.result.Ok? <==>
      ValidateSignUp(email, password).None? && account.Granted? && docFault.None?
      && (ProfileName(userData).Some? ==> profileFault.None?)
    ensures r.result.Ok? ==>
      && r.result.value == account.value
      && r.accountCreated
      && r.profileName == ProfileName(userData)
      && r.userDoc == Some(UserDocument(account.value, userData, now))
  {
    var invalid := ValidateSignUp(email, password);
    if invalid.Some? then SignUpRun(Err(invalid.value), false, false, None, None)
    else if account.Refused? then SignUpRun(Err(SignUpErrorMessage(account.error)), true, false, None, None)
    else
      var user := account.value;
      var name := ProfileName(userData);
      if name.Some? && profileFault.Some? then
        SignUpRun(Err(SignUpErrorMessage(profileFault.value)), true, true, None, None)
      else if docFault.Some? then
        SignUpRun(Err(SignUpErrorMessage(docFault.value)), true, true, name, None)
      else SignUpRun(Ok(user), true, true, name, Some(UserDocument(user, userData, now)))
  }

  /** An account can exist although `signUp` reported an error: a failure
      after the account was created is not rolled back. */
  lemma SignUpLeavesAccountOnLaterFailure(email: string, password: string, userData: Doc, user: AuthUser,
                                          docFault: AuthError, now: int)
    requires ValidateSignUp(email, password).None?
    ensures var r := SignUp(email, password, userData, Granted(user), None, Some(docFault), now);
      r.accountCreated && r.result == Err(SignUpErrorMessage(docFault)) && r.userDoc.None?
  {
  }

  /** What one `signIn` call did. */
  datatype SignInRun = SignInRun(result: Result<AuthUser>, calledBackend: bool)

  /** `signIn(email, password)`. */
  function SignIn(email: string, password: string, session: Attempt<AuthUser>): (r: SignInRun)
    ensures (email == "" || password == "") ==> r == SignInRun(Err(CredentialsRequired), false)
    ensures email != "" && password != "" ==> r.calledBackend
    ensures email != "" && password != "" && session.Granted? ==> r.result == Ok(session.value)
    ensures email != "" && password != "" && session.Refused? ==>
      r.result == Err(SignInErrorMessage(session.error))
  {
    if ValidateSignIn(email, password).Some? then SignInRun(Err(CredentialsRequired), false)
    else match session
      case Granted(user) => SignInRun(Ok(user), true)
      case Refused(e) => SignInRun(Err(SignInErrorMessage(e)), true)
  }

  /** Sign-in does not re-check the length rule of sign-up: a one-character
      password reaches the backend, while sign-up refuses it. */
  lemma SignInSkipsLengthRule(email: string, c: char, session: Attempt<AuthUser>)
    requires '@' in email
    ensures SignIn(email, [c], session).calledBackend
    ensures SignUp(email, [c], map[], Granted(AuthUser("", email)), None, None, 0).result == Err(PasswordTooShort)
  {
  }
}

=== FILE: backend.dfy ===
/** The document store behind the services, reduced to the five calls they
    use. Each call receives the environment's verdict on whether it throws
    (`fault`); documents are addressed by path, and a sub-collection exists
    independently of its parent document, as in the backend. */
module Backend {
  import opened Wrappers
  import opened Text
  import opened Documents

  /** Every stored document, by path. */
  type Store = map<Path, Doc>

  /** A call's result together with the store it leaves behind. */
  datatype Step<+T> = Step(result: Result<T>, store: Store)

  /** The document at `p` is the same (or equally absent) in both stores. */
  ghost predicate Unchanged(s: Store, s': Store, p: Path) {
    && (p in s <==> p in s')
    && (p in s ==> s'[p] == s[p])
  }

  /** Only the documents at `touched` may differ between `s` and `s'`. */
  ghost predicate FrameOnly(s: Store, s': Store, touched: set<Path>) {
    forall p :: p !in touched ==> Unchanged(s, s', p)
  }

  /** The ids of the documents directly in `collection`. */
  function Ids(s: Store, collection: Path): (r: set<string>)
    ensures forall id :: id in r <==> collection + [id] in s
  {
    var n := |collection|;
    var r := set p | p in s.Keys && |p| == n + 1 && p[..n] == collection :: p[n];
    assert forall id :: collection + [id] in s ==> id in r by {
      forall id | collection + [id] in s ensures id in r {
        var p := collection + [id];
        assert p[..n] == collection && p[n] == id;
      }
    }
    assert forall id :: id in r ==> collection + [id] in s by {
      forall id | id in r ensures collection + [id] in s {
        var p :| p in s.Keys && |p| == n + 1 && p[..n] == collection && p[n] == id;
        assert p == collection + [id];
      }
    }
    r
  }

  /** The backend's error for an update of a document that does not exist
      (its project/database prefix is left out). */
  function NoDocumentMessage(p: Path): string {
    "No document to update: " + Join(p, '/')
  }

  /** `addDoc(collection, data)`: store `data` under the generated id. */
  function AddDoc(s: Store, collection: Path, newId: string, data: Doc, fault: Fault): Step<string> {
    if fault.Some? then Step(Err(fault.value), s)
    else Step(Ok(newId), s[collection + [newId] := data])
  }

  /** `setDoc(ref, data)`: replace (or create) the document at `p`. */
  function SetDoc(s: Store, p: Path, data: Doc, fault: Fault): Step<()> {
    if fault.Some? then Step(Err(fault.value), s)
    else Step(Ok(()), s[p := data])
  }

  /** `updateDoc(ref, fields)`: merge `fields` into an existing document; the
      call fails when the document does not exist. */
  function UpdateDoc(s: Store, p: Path, fields: Doc, fault: Fault): Step<()> {
    if fault.Some? then Step(Err(fault.value), s)
    else if p !in s then Step(Err(NoDocumentMessage(p)), s)
    else Step(Ok(()), s[p := Spread(s[p], fields)])
  }

  /** `deleteDoc(ref)`: remove the document; deleting a missing document
      succeeds. */
  function DeleteDoc(s: Store, p: Path, fault: Fault): Step<()> {
    if fault.Some? then Step(Err(fault.value), s)
    else Step(Ok(()), s - {p})
  }

  /** The counter write lands, moving `field` by `delta`, exactly when it is
      not faulted and the target exists; otherwise the target is left as it
      was. */
  ghost predicate CounterAdjusted(s: Store, s': Store, target: Path, field: string, delta: int, fault: Fault) {
    if fault.None? && target in s then target in s' && Adjusted(s[target], s'[target], field, delta)
    else Unchanged(s, s', target)
  }

  /** The counter helpers: `updateDoc(target, { field: increment(delta) })`
      inside a try/catch that only logs. A failure, including the missing
      target that makes `updateDoc` fail, is swallowed: the store is left as
      it was and nothing is reported. */
  function AdjustCounter(s: Store, target: Path, field: string, delta: int, fault: Fault): (s': Store)
    ensures CounterAdjusted(s, s', target, field, delta, fault)
    ensures FrameOnly(s, s', {target})
  {
    if fault.None? && target in s then s[target := Bump(s[target], field, delta)] else s
  }
}

=== FILE: comments_section.dfy ===
/** The comments list under a post: the checks its three handlers make, the
    `commentData` record, the author-only delete control and the like count
    it shows. */
module CommentsScreen {
  import opened Wrappers
  import opened Text
  import opened Documents
  import opened Backend
  import opened ContentStore
  import opened Session

  const WriteAndLogIn := "Please write a comment and make sure you are logged in"
  const LoginToLike := "Please log in to like comments"
  const LoginToDelete := "Please log in to delete comments"

  /** What one handler did: the error alert it showed, if any, the store
      after it, and whether it reloaded the list. */
  datatype Outcome = Outcome(notice: Option<Notice>, store: Store, reloaded: bool)

  /** A refusal: an error alert, nothing written, nothing reloaded. */
  function Refused(s: Store, message: string): Outcome {
    Outcome(Some(ErrorNotice(message)), s, false)
  }

  /** A comment record with the given field values. */
  function CommentRecord(content: string, authorId: string, authorName: string, authorEmail: string): Doc {
    map["content" := Str(content), "authorId" := Str(authorId), "authorName" := Str(authorName),
        "authorEmail" := Str(authorEmail)]
  }

  /** The `commentData` record: the trimmed text, the author's id, display
      name (or email) and email. */
  function CommentData(text: string, user: Account): Doc {
    CommentRecord(Trim(text), user.uid, AuthorName(user), user.email)
  }

  /** A comment as the store keeps it: the record with zero counters and the
      store's timestamp. */
  function StoredComment(content: string, authorId: string, authorName: string, authorEmail: string, now: int): Doc {
    CommentRecord(content, authorId, authorName, authorEmail)
      + map["likesCount" := Num(0), "repliesCount" := Num(0), "createdAt" := Stamp(now), "updatedAt" := Stamp(now)]
  }

  /** The comment the store holds after `createComment(postId, commentData)`. */
  lemma OverlayOfComment(d: Doc, content: string, authorId: string, authorName: string, authorEmail: string, now: int)
    requires Overlays(d, CommentRecord(content, authorId, authorName, authorEmail), CommentFields)
    requires d["likesCount"] == Num(0) && d["repliesCount"] == Num(0)
    requires d["createdAt"] == Stamp(now) && d["updatedAt"] == Stamp(now)
    ensures d == StoredComment(content, authorId, authorName, authorEmail, now)
  {
    var e := StoredComment(content, authorId, authorName, authorEmail, now);
    assert d.Keys == e.Keys;
    forall f | f in d ensures d[f] == e[f] {
      if f in CommentFields {
      }
    }
  }

  /** `handleAddComment()` on `postId`: `text` is the typed comment, `user`
      the signed-in user, `newId` the id the store assigns, `primary` and
      `counter` whether the comment write and the counter update fail. */
  function HandleAddComment(s: Store, postId: string, text: string, user: Option<Account>, newId: string, now: int,
                            primary: Fault, counter: Fault): (r: Outcome)
    ensures Trim(text) == "" || user.None? ==> r == Refused(s, WriteAndLogIn)
    ensures Trim(text) != "" && user.Some? && primary.Some? ==> r == Refused(s, primary.value)
    ensures Trim(text) != "" && user.Some? && primary.None? ==>
      && r.notice.None? && r.reloaded
      && FrameOnly(s, r.store, {CommentPath(postId, newId), PostPath(postId)})
      && CommentPath(postId, newId) in r.store
      && r.store[CommentPath(postId, newId)]
         == StoredComment(Trim(text), user.value.uid, AuthorName(user.value), user.value.email, now)
      && CounterAdjusted(s, r.store, PostPath(postId), "commentsCount", 1, counter)
  {
    if Trim(text) == "" || user.None? then Refused(s, WriteAndLogIn)
    else
      var created := CreateComment(s, postId, CommentData(text, user.value), newId, now, primary, counter);
      match created.result
      case Ok(_) =>
        OverlayOfComment(created.store[CommentPath(postId, newId)], Trim(text), user.value.uid,
                         AuthorName(user.value), user.value.email, now);
        Outcome(None, created.store, true)
      case Err(e) => Refused(s, e)
  }

  /** `handleLikeComment(commentId)`, with `likeComment` writing its record
      (see the corrected `ContentStore.LikeComment`). */
  function HandleLikeComment(s: Store, postId: string, commentId: string, user: Option<Account>, now: int,
                             primary: Fault, counter: Fault): (r: Outcome)
    ensures user.None? ==> r == Refused(s, LoginToLike)
    ensures user.Some? && primary.Some? ==> r == Refused(s, primary.value)
    ensures user.Some? && primary.None? ==>
      && r.notice.None? && r.reloaded
      && FrameOnly(s, r.store, {CommentLikePath(postId, commentId, user.value.uid), CommentPath(postId, commentId)})
      && CommentLikePath(postId, commentId, user.value.uid) in r.store
      && r.store[CommentLikePath(postId, commentId, user.value.uid)] == LikeRecord(user.value.uid, now)
      && CounterAdjusted(s, r.store, CommentPath(postId, commentId), "likesCount", 1, counter)
  {
    if user.None? then Refused(s, LoginToLike)
    else
      var liked := LikeComment(s, postId, commentId, user.value.uid, now, primary, counter);
      match liked.result
      case Ok(_) => Outcome(None, liked.store, true)
      case Err(e) => Refused(s, e)
  }

  /** The answer to the "Delete Comment" confirmation. */
  datatype Choice = Cancel | Delete

  /** `handleDeleteComment(commentId)`: a signed-in user is asked to confirm,
      and only "Delete" calls `deleteComment`. Nothing here compares the
      user with the comment's author. */
  function HandleDeleteComment(s: Store, postId: string, commentId: string, user: Option<Account>, choice: Choice,
                               primary: Fault, counter: Fault): (r: Outcome)
    ensures user.None? ==> r == Refused(s, LoginToDelete)
    ensures user.Some? && choice == Cancel ==> r == Outcome(None, s, false)
    ensures user.Some? && choice == Delete && primary.Some? ==> r == Refused(s, primary.value)
    ensures user.Some? && choice == Delete && primary.None? ==>
      && r.notice.None? && r.reloaded
      && CommentPath(postId, commentId) !in r.store
      && FrameOnly(s, r.store, {CommentPath(postId, commentId), PostPath(postId)})
      && CounterAdjusted(s, r.store, PostPath(postId), "commentsCount", -1, counter)
  {
    if user.None? then Refused(s, LoginToDelete)
    else if choice == Cancel then Outcome(None, s, false)
    else
      var removed := DeleteComment(s, postId, commentId, primary, counter);
      match removed.result
      case Ok(_) => Outcome(None, removed.store, true)
      case Err(e) => Refused(s, e)
  }

  /** The delete control is rendered for `item` exactly when a user is
      signed in and is its author (`user.uid === item.authorId`). */
  predicate ShowsDelete(user: Option<Account>, item: Doc) {
    user.Some? && "authorId" in item && item["authorId"] == Str(user.value.uid)
  }

  /** A comment's author, and nobody else, sees the delete control on it
      once it is listed (as `HandleAddComment` stores it). */
  lemma AuthorSeesDelete(content: string, authorId: string, authorName: string, authorEmail: string, now: int,
                         id: string, viewer: Option<Account>)
    ensures ShowsDelete(viewer, WithId(id, StoredComment(content, authorId, authorName, authorEmail, now)))
            <==> viewer.Some? && viewer.value.uid == authorId
  {
    var d := StoredComment(content, authorId, authorName, authorEmail, now);
    assert d["authorId"] == Str(authorId);
  }

  /** The author-only rule lives in the list alone: a signed-in user who
      is not the author sees no delete control, yet a confirmed
      `handleDeleteComment` for that comment removes it all the same. */
  lemma DeleteNotLimitedToAuthor(s: Store, postId: string, commentId: string, user: Account, counter: Fault)
    requires CommentPath(postId, commentId) in s
    requires var d := s[CommentPath(postId, commentId)]; "authorId" in d && d["authorId"] != Str(user.uid)
    ensures !ShowsDelete(Some(user), WithId(commentId, s[CommentPath(postId, commentId)]))
    ensures CommentPath(postId, commentId) !in HandleDeleteComment(s, postId, commentId, Some(user), Delete, None, counter).store
  {
  }

  /** The like count shown for `item` (`item.likesCount || 0`). */
  function DisplayedLikes(item: Doc): Value {
    OrElse(item, "likesCount", Num(0))
  }

  /** When the stored counter is a number or absent, the list shows exactly
      the number `increment` works from. */
  lemma DisplayedLikesIsCounter(item: Doc)
    requires "likesCount" in item ==> item["likesCount"].Num?
    ensures DisplayedLikes(item) == Num(NumOrZero(item, "likesCount"))
  {
  }

  /** A fresh comment shows 0 likes, and each successful like shows one
      more, as long as the counter update lands. */
  lemma LikeShowsOneMore(s: Store, postId: string, commentId: string, user: Account, now: int)
    requires CommentPath(postId, commentId) in s
    requires var d := s[CommentPath(postId, commentId)]; "likesCount" in d ==> d["likesCount"].Num?
    ensures var s' := HandleLikeComment(s, postId, commentId, Some(user), now, None, None).store;
      && CommentPath(postId, commentId) in s'
      && DisplayedLikes(WithId(commentId, s'[CommentPath(postId, commentId)]))
         == Num(NumOrZero(s[CommentPath(postId, commentId)], "likesCount") + 1)
  {
    var s' := HandleLikeComment(s, postId, commentId, Some(user), now, None, None).store;
    var d' := s'[CommentPath(postId, commentId)];
    assert d'["likesCount"] == Num(NumOrZero(s[CommentPath(postId, commentId)], "likesCount") + 1);
    DisplayedLikesIsCounter(WithId(commentId, d'));
  }

  lemma FreshCommentShowsNoLikes(content: string, authorId: string, authorName: string, authorEmail: string,
                                 now: int, id: string)
    ensures DisplayedLikes(WithId(id, StoredComment(content, authorId, authorName, authorEmail, now))) == Num(0)
  {
    var d := StoredComment(content, authorId, authorName, authorEmail, now);
    assert d["likesCount"] == Num(0);
  }
}

=== FILE: content_store.dfy ===
/** The content store: posts, their comments, the comments' replies, and the
    like records of posts and comments, plus the legacy creator posts. Each
    operation is one primary backend call and, for the operations that own a
    counter, one counter write after it. A failing primary call turns into
    `Err(message)` and stops there; a failing counter write is swallowed and
    the operation still answers `Ok`. */
module ContentStore {
  import opened Wrappers
  import opened Text
  import opened Documents
  import opened Backend
  import opened Paging

  // ---- Document layout ----

  function PostsCollection(): Path { ["posts"] }
  function PostPath(postId: string): Path { ["posts", postId] }
  function CreatorPostsCollection(creatorId: string): Path { ["creators", creatorId, "posts"] }
  function CreatorPostPath(creatorId: string, postId: string): Path { ["creators", creatorId, "posts", postId] }
  function CommentsCollection(postId: string): Path { ["posts", postId, "comments"] }
  function CommentPath(postId: string, commentId: string): Path { ["posts", postId, "comments", commentId] }
  function RepliesCollection(postId: string, commentId: string): Path {
    ["posts", postId, "comments", commentId, "replies"]
  }
  function ReplyPath(postId: string, commentId: string, replyId: string): Path {
    ["posts", postId, "comments", commentId, "replies", replyId]
  }
  function PostLikePath(postId: string, userId: string): Path { ["posts", postId, "likes", userId] }
  function CommentLikePath(postId: string, commentId: string, userId: string): Path {
    ["posts", postId, "comments", commentId, "likes", userId]
  }

  const PostNotFound := "Post not found"

  /** Default page sizes of the listing calls. */
  const DefaultPostsLimit := 10
  const DefaultCommentsLimit := 20
  const DefaultRepliesLimit := 10

  // ---- Documents the store writes ----

  /** The fields `createPost` sets itself, overriding the caller's. */
  const PostFields: set<string> := {"authorId", "createdAt", "updatedAt", "likesCount", "commentsCount"}
  /** The fields `createCreatorPost` sets itself (no `authorId`). */
  const CreatorPostFields: set<string> := {"createdAt", "updatedAt", "likesCount", "commentsCount"}
  const CommentFields: set<string> := {"createdAt", "updatedAt", "likesCount", "repliesCount"}
  const ReplyFields: set<string> := {"createdAt", "updatedAt", "likesCount"}

  function NewPost(authorId: string, postData: Doc, now: int): Doc {
    Spread(postData, map["authorId" := Str(authorId), "createdAt" := Stamp(now), "updatedAt" := Stamp(now),
                         "likesCount" := Num(0), "commentsCount" := Num(0)])
  }

  function NewCreatorPost(postData: Doc, now: int): Doc {
    Spread(postData, map["createdAt" := Stamp(now), "updatedAt" := Stamp(now),
                         "likesCount" := Num(0), "commentsCount" := Num(0)])
  }

  function NewComment(commentData: Doc, now: int): Doc {
    Spread(commentData, map["createdAt" := Stamp(now), "updatedAt" := Stamp(now),
                            "likesCount" := Num(0), "repliesCount" := Num(0)])
  }

  function NewReply(replyData: Doc, now: int): Doc {
    Spread(replyData, map["createdAt" := Stamp(now), "updatedAt" := Stamp(now), "likesCount" := Num(0)])
  }

  /** The like record stored under the liking user's id. */
  function LikeRecord(userId: string, now: int): Doc {
    map["userId" := Str(userId), "createdAt" := Stamp(now)]
  }

  /** `d` holds the caller's `data` with the store's own `fields` laid over
      it: exactly the keys of both, and every caller field the store does
      not set kept as given. */
  ghost predicate Overlays(d: Doc, data: Doc, fields: set<string>) {
    && d.Keys == data.Keys + fields
    && forall f :: f in data && f !in fields ==> d[f] == data[f]
  }

  /** `d'` is `d` after an update with `data` at time `now`: the given
      fields take the given values, `updatedAt` is re-stamped, and every
      other field is as it was. */
  ghost predicate Merged(d: Doc, d': Doc, data: Doc, now: int) {
    && d'.Keys == d.Keys + data.Keys + {"updatedAt"}
    && d'["updatedAt"] == Stamp(now)
    && (forall f :: f in data && f != "updatedAt" ==> d'[f] == data[f])
    && (forall f :: f in d && f !in data && f != "updatedAt" ==> d'[f] == d[f])
  }

  // ---- Posts ----

  /** `createPost(authorId, postData)`. */
  function CreatePost(s: Store, authorId: string, postData: Doc, newId: string, now: int, fault: Fault)
    : (r: Step<string>)
    ensures fault.Some? ==> r == Step(Err(fault.value), s)
    ensures fault.None? ==>
      && r.result == Ok(newId)
      && FrameOnly(s, r.store, {PostPath(newId)})
      && PostPath(newId) in r.store
      && var d := r.store[PostPath(newId)];
         && Overlays(d, postData, PostFields)
         && d["authorId"] == Str(authorId)
         && d["likesCount"] == Num(0) && d["commentsCount"] == Num(0)
         && d["createdAt"] == Stamp(now) && d["updatedAt"] == Stamp(now)
  {
    assert PostsCollection() + [newId] == PostPath(newId);
    AddDoc(s, PostsCollection(), newId, NewPost(authorId, postData, now), fault)
  }

  /** `createCreatorPost(creatorId, postData)`: like `createPost` under
      `creators/{creatorId}/posts`, but without setting `authorId`. */
  function CreateCreatorPost(s: Store, creatorId: string, postData: Doc, newId: string, now: int, fault: Fault)
    : (r: Step<string>)
    ensures fault.Some? ==> r == Step(Err(fault.value), s)
    ensures fault.None? ==>
      && r.result == Ok(newId)
      && FrameOnly(s, r.store, {CreatorPostPath(creatorId, newId)})
      && CreatorPostPath(creatorId, newId) in r.store
      && var d := r.store[CreatorPostPath(creatorId, newId)];
         && Overlays(d, postData, CreatorPostFields)
         && ("authorId" in d <==> "authorId" in postData)
         && d["likesCount"] == Num(0) && d["commentsCount"] == Num(0)
         && d["createdAt"] == Stamp(now) && d["updatedAt"] == Stamp(now)
  {
    assert CreatorPostsCollection(creatorId) + [newId] == CreatorPostPath(creatorId, newId);
    AddDoc(s, CreatorPostsCollection(creatorId), newId, NewCreatorPost(postData, now), fault)
  }

  /** Reading one document: the read may fail; a missing document is
      "Post not found"; otherwise `{ id, ...data }`. */
  function ReadPost(s: Store, p: Path, id: string, fault: Fault): (r: Result<Doc>)
    ensures fault.Some? ==> r == Err(fault.value)
    ensures fault.None? && p !in s ==> r == Err(PostNotFound)
    ensures fault.None? && p in s ==> r.Ok? && r.value == WithId(id, s[p])
  {
    if fault.Some? then Err(fault.value)
    else if p !in s then Err(PostNotFound)
    else Ok(WithId(id, s[p]))
  }

  /** `getPost(postId)`. */
  function GetPost(s: Store, postId: string, fault: Fault): (r: Result<Doc>)
    ensures fault.Some? ==> r == Err(fault.value)
    ensures fault.None? && PostPath(postId) !in s ==> r == Err(PostNotFound)
    ensures fault.None? && PostPath(postId) in s ==>
      && r.Ok?
      && r.value.Keys == s[PostPath(postId)].Keys + {"id"}
      && (forall f :: f in s[PostPath(postId)] ==> r.value[f] == s[PostPath(postId)][f])
      && ("id" !in s[PostPath(postId)] ==> r.value["id"] == Str(postId))
  {
    ReadPost(s, PostPath(postId), postId, fault)
  }

  /** `getCreatorPost(creatorId, postId)`. */
  function GetCreatorPost(s: Store, creatorId: string, postId: string, fault: Fault): (r: Result<Doc>)
    ensures fault.Some? ==> r == Err(fault.value)
    ensures fault.None? && CreatorPostPath(creatorId, postId) !in s ==> r == Err(PostNotFound)
    ensures fault.None? && CreatorPostPath(creatorId, postId) in s ==>
      && r.Ok?
      && r.value.Keys == s[CreatorPostPath(creatorId, postId)].Keys + {"id"}
      && (forall f :: f in s[CreatorPostPath(creatorId, postId)] ==>
            r.value[f] == s[CreatorPostPath(creatorId, postId)][f])
      && ("id" !in s[CreatorPostPath(creatorId, postId)] ==> r.value["id"] == Str(postId))
  {
    ReadPost(s, CreatorPostPath(creatorId, postId), postId, fault)
  }

  /** `updateDoc(ref, { ...data, updatedAt: serverTimestamp() })`. */
  function UpdateAt(s: Store, p: Path, data: Doc, now: int, fault: Fault): (r: Step<()>)
    ensures fault.Some? ==> r == Step(Err(fault.value), s)
    ensures fault.None? && p !in s ==> r == Step(Err(NoDocumentMessage(p)), s)
    ensures fault.None? && p in s ==>
      && r.result == Ok(())
      && FrameOnly(s, r.store, {p})
      && p in r.store
      && Merged(s[p], r.store[p], data, now)
  {
    UpdateDoc(s, p, Spread(data, map["updatedAt" := Stamp(now)]), fault)
  }

  /** `updatePost(postId, updateData)`: only the given fields and
      `updatedAt` change; a missing post makes the update fail. */
  function UpdatePost(s: Store, postId: string, updateData: Doc, now: int, fault: Fault): (r: Step<()>)
    ensures fault.Some? ==> r == Step(Err(fault.value), s)
    ensures fault.None? && PostPath(postId) !in s ==> r.result.Err? && r.store == s
    ensures fault.None? && PostPath(postId) in s ==>
      && r.result == Ok(())
      && FrameOnly(s, r.store, {PostPath(postId)})
      && PostPath(postId) in r.store
      && Merged(s[PostPath(postId)], r.store[PostPath(postId)], updateData, now)
  {
    UpdateAt(s, PostPath(postId), updateData, now, fault)
  }

  /** `updateCreatorPost(creatorId, postId, updateData)`. */
  function UpdateCreatorPost(s: Store, creatorId: string, postId: string, updateData: Doc, now: int, fault: Fault)
    : (r: Step<()>)
    ensures fault.Some? ==> r == Step(Err(fault.value), s)
    ensures fault.None? && CreatorPostPath(creatorId, postId) !in s ==> r.result.Err? && r.store == s
    ensures fault.None? && CreatorPostPath(creatorId, postId) in s ==>
      && r.result == Ok(())
      && FrameOnly(s, r.store, {CreatorPostPath(creatorId, postId)})
      && CreatorPostPath(creatorId, postId) in r.store
      && Merged(s[CreatorPostPath(creatorId, postId)], r.store[CreatorPostPath(creatorId, postId)], updateData, now)
  {
    UpdateAt(s, CreatorPostPath(creatorId, postId), updateData, now, fault)
  }

  /** `deletePost(postId)`: removes the post document only; its comments,
      replies and likes stay where they are. */
  function DeletePost(s: Store, postId: string, fault: Fault): (r: Step<()>)
    ensures fault.Some? ==> r == Step(Err(fault.value), s)
    ensures fault.None? ==>
      && r.result == Ok(())
      && PostPath(postId) !in r.store
      && FrameOnly(s, r.store, {PostPath(postId)})
  {
    DeleteDoc(s, PostPath(postId), fault)
  }

  /** `deleteCreatorPost(creatorId, postId)`. */
  function DeleteCreatorPost(s: Store, creatorId: string, postId: string, fault: Fault): (r: Step<()>)
    ensures fault.Some? ==> r == Step(Err(fault.value), s)
    ensures fault.None? ==>
      && r.result == Ok(())
      && CreatorPostPath(creatorId, postId) !in r.store
      && FrameOnly(s, r.store, {CreatorPostPath(creatorId, postId)})
  {
    DeleteDoc(s, CreatorPostPath(creatorId, postId), fault)
  }

  // ---- Comments and replies ----

  /** `createComment(postId, commentData)`: add the comment, then add 1 to
      the post's `commentsCount` (best effort). */
  function CreateComment(s: Store, postId: string, commentData: Doc, newId: string, now: int,
                         primary: Fault, counter: Fault): (r: Step<string>)
    ensures primary.Some? ==> r == Step(Err(primary.value), s)
    ensures primary.None? ==>
      && r.result == Ok(newId)
      && FrameOnly(s, r.store, {CommentPath(postId, newId), PostPath(postId)})
      && CommentPath(postId, newId) in r.store
      && var d := r.store[CommentPath(postId, newId)];
         && Overlays(d, commentData, CommentFields)
         && d["likesCount"] == Num(0) && d["repliesCount"] == Num(0)
         && d["createdAt"] == Stamp(now) && d["updatedAt"] == Stamp(now)
    ensures primary.None? ==> CounterAdjusted(s, r.store, PostPath(postId), "commentsCount", 1, counter)
  {
    assert CommentsCollection(postId) + [newId] == CommentPath(postId, newId);
    var added := AddDoc(s, CommentsCollection(postId), newId, NewComment(commentData, now), primary);
    if added.result.Err? then Step(Err(added.result.error), s)
    else Step(added.result, AdjustCounter(added.store, PostPath(postId), "commentsCount", 1, counter))
  }

  /** `updateComment(postId, commentId, updateData)`. */
  function UpdateComment(s: Store, postId: string, commentId: string, updateData: Doc, now: int, fault: Fault)
    : (r: Step<()>)
    ensures fault.Some? ==> r == Step(Err(fault.value), s)
    ensures fault.None? && CommentPath(postId, commentId) !in s ==> r.result.Err? && r.store == s
    ensures fault.None? && CommentPath(postId, commentId) in s ==>
      && r.result == Ok(())
      && FrameOnly(s, r.store, {CommentPath(postId, commentId)})
      && CommentPath(postId, commentId) in r.store
      && Merged(s[CommentPath(postId, commentId)], r.store[CommentPath(postId, commentId)], updateData, now)
  {
    UpdateAt(s, CommentPath(postId, commentId), updateData, now, fault)
  }

  /** `deleteComment(postId, commentId)`: remove the comment, then subtract 1
      from the post's `commentsCount` (best effort, never clamped). Its
      replies and likes are left in place. */
  function DeleteComment(s: Store, postId: string, commentId: string, primary: Fault, counter: Fault)
    : (r: Step<()>)
    ensures primary.Some? ==> r == Step(Err(primary.value), s)
    ensures primary.None? ==>
      && r.result == Ok(())
      && CommentPath(postId, commentId) !in r.store
      && FrameOnly(s, r.store, {CommentPath(postId, commentId), PostPath(postId)})
      && CounterAdjusted(s, r.store, PostPath(postId), "commentsCount", -1, counter)
  {
    var removed := DeleteDoc(s, CommentPath(postId, commentId), primary);
    if removed.result.Err? then Step(Err(removed.result.error), s)
    else Step(Ok(()), AdjustCounter(removed.store, PostPath(postId), "commentsCount", -1, counter))
  }

  /** `createReply(postId, commentId, replyData)`: add the reply, then add 1
      to the comment's `repliesCount` (best effort). */
  function CreateReply(s: Store, postId: string, commentId: string, replyData: Doc, newId: string, now: int,
                       primary: Fault, counter: Fault): (r: Step<string>)
    ensures primary.Some? ==> r == Step(Err(primary.value), s)
    ensures primary.None? ==>
      && r.result == Ok(newId)
      && FrameOnly(s, r.store, {ReplyPath(postId, commentId, newId), CommentPath(postId, commentId)})
      && ReplyPath(postId, commentId, newId) in r.store
      && (var d := r.store[ReplyPath(postId, commentId, newId)];
          && Overlays(d, replyData, ReplyFields)
          && d["likesCount"] == Num(0)
          && d["createdAt"] == Stamp(now) && d["updatedAt"] == Stamp(now))
      && CounterAdjusted(s, r.store, CommentPath(postId, commentId), "repliesCount", 1, counter)
  {
    assert RepliesCollection(postId, commentId) + [newId] == ReplyPath(postId, commentId, newId);
    var added := AddDoc(s, RepliesCollection(postId, commentId), newId, NewReply(replyData, now), primary);
    if added.result.Err? then Step(Err(added.result.error), s)
    else Step(added.result, AdjustCounter(added.store, CommentPath(postId, commentId), "repliesCount", 1, counter))
  }

  // ---- Likes ----

  /** `likePost(postId, userId)` as the source declares it: the same two
      steps, but the first one, the call to the undeclared `setDoc`, throws a
      ReferenceError inside the `try`. The engine's message comes back as the
      error and the counter update is never reached. */
  function LikePostAsWritten(s: Store, postId: string, userId: string, now: int, counter: Fault,
                             referenceError: string): (r: Step<()>)
    ensures r.result == Err(referenceError)
    ensures r.store == s
  {
    LikePost(s, postId, userId, now, Some(referenceError), counter)
  }

  /** `likeComment(postId, commentId, userId)` as the source declares it:
      its like-record write is the same undeclared `setDoc`. */
  function LikeCommentAsWritten(s: Store, postId: string, commentId: string, userId: string, now: int,
                                counter: Fault, referenceError: string): (r: Step<()>)
    ensures r.result == Err(referenceError)
    ensures r.store == s
  {
    LikeComment(s, postId, commentId, userId, now, Some(referenceError), counter)
  }

  /** `likePost(postId, userId)` with `setDoc` imported: write the like
      record under the user's id (replacing any earlier one), then add 1 to
      the post's `likesCount` unconditionally (best effort). */
  function LikePost(s: Store, postId: string, userId: string, now: int, primary: Fault, counter: Fault)
    : (r: Step<()>)
    ensures primary.Some? ==> r == Step(Err(primary.value), s)
    ensures primary.None? ==>
      && r.result == Ok(())
      && FrameOnly(s, r.store, {PostLikePath(postId, userId), PostPath(postId)})
      && PostLikePath(postId, userId) in r.store
      && r.store[PostLikePath(postId, userId)] == LikeRecord(userId, now)
      && CounterAdjusted(s, r.store, PostPath(postId), "likesCount", 1, counter)
  {
    var written := SetDoc(s, PostLikePath(postId, userId), LikeRecord(userId, now), primary);
    if written.result.Err? then Step(Err(written.result.error), s)
    else Step(Ok(()), AdjustCounter(written.store, PostPath(postId), "likesCount", 1, counter))
  }

  /** `unlikePost(postId, userId)`: remove the like record (removing an
      absent one succeeds), then subtract 1 from `likesCount`
      unconditionally (best effort). */
  function UnlikePost(s: Store, postId: string, userId: string, primary: Fault, counter: Fault)
    : (r: Step<()>)
    ensures primary.Some? ==> r == Step(Err(primary.value), s)
    ensures primary.None? ==>
      && r.result == Ok(())
      && PostLikePath(postId, userId) !in r.store
      && FrameOnly(s, r.store, {PostLikePath(postId, userId), PostPath(postId)})
      && CounterAdjusted(s, r.store, PostPath(postId), "likesCount", -1, counter)
  {
    var removed := DeleteDoc(s, PostLikePath(postId, userId), primary);
    if removed.result.Err? then Step(Err(removed.result.error), s)
    else Step(Ok(()), AdjustCounter(removed.store, PostPath(postId), "likesCount", -1, counter))
  }

  /** `likeComment(postId, commentId, userId)` with `setDoc` imported. */
  function LikeComment(s: Store, postId: string, commentId: string, userId: string, now: int,
                       primary: Fault, counter: Fault): (r: Step<()>)
    ensures primary.Some? ==> r == Step(Err(primary.value), s)
    ensures primary.None? ==>
      && r.result == Ok(())
      && FrameOnly(s, r.store, {CommentLikePath(postId, commentId, userId), CommentPath(postId, commentId)})
      && CommentLikePath(postId, commentId, userId) in r.store
      && r.store[CommentLikePath(postId, commentId, userId)] == LikeRecord(userId, now)
      && CounterAdjusted(s, r.store, CommentPath(postId, commentId), "likesCount", 1, counter)
  {
    var written := SetDoc(s, CommentLikePath(postId, commentId, userId), LikeRecord(userId, now), primary);
    if written.result.Err? then Step(Err(written.result.error), s)
    else Step(Ok(()), AdjustCounter(written.store, CommentPath(postId, commentId), "likesCount", 1, counter))
  }

  /** `unlikeComment(postId, commentId, userId)`. */
  function UnlikeComment(s: Store, postId: string, commentId: string, userId: string,
                         primary: Fault, counter: Fault): (r: Step<()>)
    ensures primary.Some? ==> r == Step(Err(primary.value), s)
    ensures primary.None? ==>
      && r.result == Ok(())
      && CommentLikePath(postId, commentId, userId) !in r.store
      && FrameOnly(s, r.store, {CommentLikePath(postId, commentId, userId), CommentPath(postId, commentId)})
      && CounterAdjusted(s, r.store, CommentPath(postId, commentId), "likesCount", -1, counter)
  {
    var removed := DeleteDoc(s, CommentLikePath(postId, commentId, userId), primary);
    if removed.result.Err? then Step(Err(removed.result.error), s)
    else Step(Ok(()), AdjustCounter(removed.store, CommentPath(postId, commentId), "likesCount", -1, counter))
  }

  // ---- Listings ----

  /** `docs` are the documents of `ids` in `collection`, in the same order,
      each as `{ id, ...data }`. */
  ghost predicate Delivers(s: Store, collection: Path, ids: seq<string>, docs: seq<Doc>) {
    && |docs| == |ids|
    && forall i :: 0 <= i < |ids| ==>
         collection + [ids[i]] in s && docs[i] == WithId(ids[i], s[collection + [ids[i]]])
  }

  /** `limitCount` as the call receives it: `None` when omitted. */
  function PageSize(limitCount: Option<int>, default: int): int {
    limitCount.GetOr(default)
  }

  /** `getAllPosts(limitCount = 10, lastDoc)`: newest first. */
  method GetAllPosts(s: Store, limitCount: Option<int>, cursor: Option<SortKey>, fault: Fault)
    returns (r: Result<seq<Doc>>, ids: seq<string>)
    ensures var n := PageSize(limitCount, DefaultPostsLimit);
      && (n <= 0 ==> r == Err(LimitMessage(n)))
      && (n > 0 && fault.Some? ==> r == Err(fault.value))
      && (n > 0 && fault.None? ==>
            r.Ok? && Delivers(s, PostsCollection(), ids, r.value) && IsPage(s, PostsCollection(), Desc, n, cursor, ids))
  {
    r, ids := List(s, PostsCollection(), Desc, PageSize(limitCount, DefaultPostsLimit), cursor, fault);
  }

  /** `getCreatorPosts(creatorId, limitCount = 10, lastDoc)`: newest first. */
  method GetCreatorPosts(s: Store, creatorId: string, limitCount: Option<int>, cursor: Option<SortKey>,
                         fault: Fault)
    returns (r: Result<seq<Doc>>, ids: seq<string>)
    ensures var n := PageSize(limitCount, DefaultPostsLimit);
      && (n <= 0 ==> r == Err(LimitMessage(n)))
      && (n > 0 && fault.Some? ==> r == Err(fault.value))
      && (n > 0 && fault.None? ==>
            r.Ok? && Delivers(s, CreatorPostsCollection(creatorId), ids, r.value) && IsPage(s, CreatorPostsCollection(creatorId), Desc, n, cursor, ids))
  {
    r, ids := List(s, CreatorPostsCollection(creatorId), Desc, PageSize(limitCount, DefaultPostsLimit),
                   cursor, fault);
  }

  /** `getComments(postId, limitCount = 20, lastDoc)`: newest first. */
  method GetComments(s: Store, postId: string, limitCount: Option<int>, cursor: Option<SortKey>, fault: Fault)
    returns (r: Result<seq<Doc>>, ids: seq<string>)
    ensures var n := PageSize(limitCount, DefaultCommentsLimit);
      && (n <= 0 ==> r == Err(LimitMessage(n)))
      && (n > 0 && fault.Some? ==> r == Err(fault.value))
      && (n > 0 && fault.None? ==>
            r.Ok? && Delivers(s, CommentsCollection(postId), ids, r.value) && IsPage(s, CommentsCollection(postId), Desc, n, cursor, ids))
  {
    r, ids := List(s, CommentsCollection(postId), Desc, PageSize(limitCount, DefaultCommentsLimit),
                   cursor, fault);
  }

  /** `getReplies(postId, commentId, limitCount = 10, lastDoc)`: oldest
      first, to read as a conversation. */
  method GetReplies(s: Store, postId: string, commentId: string, limitCount: Option<int>,
                    cursor: Option<SortKey>, fault: Fault)
    returns (r: Result<seq<Doc>>, ids: seq<string>)
    ensures var n := PageSize(limitCount, DefaultRepliesLimit);
      && (n <= 0 ==> r == Err(LimitMessage(n)))
      && (n > 0 && fault.Some? ==> r == Err(fault.value))
      && (n > 0 && fault.None? ==>
            r.Ok? && Delivers(s, RepliesCollection(postId, commentId), ids, r.value) && IsPage(s, RepliesCollection(postId, commentId), Asc, n, cursor, ids))
  {
    r, ids := List(s, RepliesCollection(postId, commentId), Asc, PageSize(limitCount, DefaultRepliesLimit),
                   cursor, fault);
  }
}

=== FILE: content_store_props.dfy ===
/** What the content store's operations do together: which documents each
    one may touch, how like records and counters move (and drift apart),
    what deleting a comment leaves behind, and a whole post-comment-reply
    conversation. */
module ContentStoreProps {
  import opened Wrappers
  import opened Documents
  import opened Backend
  import opened Paging
  import opened ContentStore

  /** Every call of the content store that writes. */
  datatype Op =
    | CreatePostOp(authorId: string, postData: Doc, newId: string, now: int, fault: Fault)
    | CreateCreatorPostOp(creatorId: string, postData: Doc, newId: string, now: int, fault: Fault)
    | UpdatePostOp(postId: string, data: Doc, now: int, fault: Fault)
    | UpdateCreatorPostOp(creatorId: string, postId: string, data: Doc, now: int, fault: Fault)
    | DeletePostOp(postId: string, fault: Fault)
    | DeleteCreatorPostOp(creatorId: string, postId: string, fault: Fault)
    | CreateCommentOp(postId: string, data: Doc, newId: string, now: int, primary: Fault, counter: Fault)
    | UpdateCommentOp(postId: string, commentId: string, data: Doc, now: int, fault: Fault)
    | DeleteCommentOp(postId: string, commentId: string, primary: Fault, counter: Fault)
    | CreateReplyOp(postId: string, commentId: string, data: Doc, newId: string, now: int,
                    primary: Fault, counter: Fault)
    | LikePostOp(postId: string, userId: string, now: int, primary: Fault, counter: Fault)
    | UnlikePostOp(postId: string, userId: string, primary: Fault, counter: Fault)
    | LikeCommentOp(postId: string, commentId: string, userId: string, now: int, primary: Fault, counter: Fault)
    | UnlikeCommentOp(postId: string, commentId: string, userId: string, primary: Fault, counter: Fault)

  /** The documents an operation addresses: its own document and, for the
      counting operations, the parent whose counter it moves. */
  function Touched(op: Op): set<Path> {
    match op
    case CreatePostOp(_, _, id, _, _) => {PostPath(id)}
    case CreateCreatorPostOp(c, _, id, _, _) => {CreatorPostPath(c, id)}
    case UpdatePostOp(p, _, _, _) => {PostPath(p)}
    case UpdateCreatorPostOp(c, p, _, _, _) => {CreatorPostPath(c, p)}
    case DeletePostOp(p, _) => {PostPath(p)}
    case DeleteCreatorPostOp(c, p, _) => {CreatorPostPath(c, p)}
    case CreateCommentOp(p, _, id, _, _, _) => {CommentPath(p, id), PostPath(p)}
    case UpdateCommentOp(p, c, _, _, _) => {CommentPath(p, c)}
    case DeleteCommentOp(p, c, _, _) => {CommentPath(p, c), PostPath(p)}
    case CreateReplyOp(p, c, _, id, _, _, _) => {ReplyPath(p, c, id), CommentPath(p, c)}
    case LikePostOp(p, u, _, _, _) => {PostLikePath(p, u), PostPath(p)}
    case UnlikePostOp(p, u, _, _) => {PostLikePath(p, u), PostPath(p)}
    case LikeCommentOp(p, c, u, _, _, _) => {CommentLikePath(p, c, u), CommentPath(p, c)}
    case UnlikeCommentOp(p, c, u, _, _) => {CommentLikePath(p, c, u), CommentPath(p, c)}
  }

  /** The store after `op`. */
  function Apply(s: Store, op: Op): Store {
    match op
    case CreatePostOp(a, d, id, t, f) => CreatePost(s, a, d, id, t, f).store
    case CreateCreatorPostOp(c, d, id, t, f) => CreateCreatorPost(s, c, d, id, t, f).store
    case UpdatePostOp(p, d, t, f) => UpdatePost(s, p, d, t, f).store
    case UpdateCreatorPostOp(c, p, d, t, f) => UpdateCreatorPost(s, c, p, d, t, f).store
    case DeletePostOp(p, f) => DeletePost(s, p, f).store
    case DeleteCreatorPostOp(c, p, f) => DeleteCreatorPost(s, c, p, f).store
    case CreateCommentOp(p, d, id, t, f, g) => CreateComment(s, p, d, id, t, f, g).store
    case UpdateCommentOp(p, c, d, t, f) => UpdateComment(s, p, c, d, t, f).store
    case DeleteCommentOp(p, c, f, g) => DeleteComment(s, p, c, f, g).store
    case CreateReplyOp(p, c, d, id, t, f, g) => CreateReply(s, p, c, d, id, t, f, g).store
    case LikePostOp(p, u, t, f, g) => LikePost(s, p, u, t, f, g).store
    case UnlikePostOp(p, u, f, g) => UnlikePost(s, p, u, f, g).store
    case LikeCommentOp(p, c, u, t, f, g) => LikeComment(s, p, c, u, t, f, g).store
    case UnlikeCommentOp(p, c, u, f, g) => UnlikeComment(s, p, c, u, f, g).store
  }

  /** Nothing outside `Touched(op)` changes. */
  lemma ApplyFrame(s: Store, op: Op, p: Path)
    requires p !in Touched(op)
    ensures Unchanged(s, Apply(s, op), p)
  {
    match op
    case CreatePostOp(a, d, id, t, f) =>
    case CreateCreatorPostOp(c, d, id, t, f) =>
    case UpdatePostOp(q, d, t, f) =>
    case UpdateCreatorPostOp(c, q, d, t, f) =>
    case DeletePostOp(q, f) =>
    case DeleteCreatorPostOp(c, q, f) =>
    case CreateCommentOp(q, d, id, t, f, g) =>
    case UpdateCommentOp(q, c, d, t, f) =>
    case DeleteCommentOp(q, c, f, g) =>
    case CreateReplyOp(q, c, d, id, t, f, g) =>
    case LikePostOp(q, u, t, f, g) =>
    case UnlikePostOp(q, u, f, g) =>
    case LikeCommentOp(q, c, u, t, f, g) =>
    case UnlikeCommentOp(q, c, u, f, g) =>
  }

  // ---- The two trees ----

  predicate InTree(p: Path, root: string) { |p| > 0 && p[0] == root }

  predicate IsCreatorOp(op: Op) {
    op.CreateCreatorPostOp? || op.UpdateCreatorPostOp? || op.DeleteCreatorPostOp?
  }

  /** The creator-post calls never touch anything under `posts`, and the
      other calls never touch anything under `creators`. */
  lemma TreesSeparate(s: Store, op: Op, p: Path)
    requires IsCreatorOp(op) ==> InTree(p, "posts")
    requires !IsCreatorOp(op) ==> InTree(p, "creators")
    ensures Unchanged(s, Apply(s, op), p)
  {
    assert forall q :: q in Touched(op) ==> InTree(q, if IsCreatorOp(op) then "creators" else "posts");
    ApplyFrame(s, op, p);
  }

  // ---- Likes and counters ----

  function PostLikesCollection(postId: string): Path { ["posts", postId, "likes"] }
  function CommentLikesCollection(postId: string, commentId: string): Path {
    ["posts", postId, "comments", commentId, "likes"]
  }

  /** The users with a like record on the post. */
  function PostLikers(s: Store, postId: string): (r: set<string>)
    ensures forall u :: u in r <==> PostLikePath(postId, u) in s
  {
    assert forall u :: PostLikesCollection(postId) + [u] == PostLikePath(postId, u);
    Ids(s, PostLikesCollection(postId))
  }

  /** The users with a like record on the comment. */
  function CommentLikers(s: Store, postId: string, commentId: string): (r: set<string>)
    ensures forall u :: u in r <==> CommentLikePath(postId, commentId, u) in s
  {
    assert forall u :: CommentLikesCollection(postId, commentId) + [u] == CommentLikePath(postId, commentId, u);
    Ids(s, CommentLikesCollection(postId, commentId))
  }

  /** The number a counter field of the document at `p` reads as. */
  function Counter(s: Store, p: Path, field: string): int {
    if p in s then NumOrZero(s[p], field) else 0
  }

  /** A landed like adds exactly the liking user to the post's likers and
      moves `likesCount` up by one, whether or not that user had liked it. */
  lemma LikePostEffect(s: Store, postId: string, userId: string, now: int)
    requires PostPath(postId) in s
    ensures var s' := LikePost(s, postId, userId, now, None, None).store;
      && PostLikers(s', postId) == PostLikers(s, postId) + {userId}
      && Counter(s', PostPath(postId), "likesCount") == Counter(s, PostPath(postId), "likesCount") + 1
  {
    var s' := LikePost(s, postId, userId, now, None, None).store;
    forall u ensures u in PostLikers(s', postId) <==> u in PostLikers(s, postId) + {userId} {
      if u != userId {
        assert PostLikePath(postId, u) !in {PostLikePath(postId, userId), PostPath(postId)};
      }
    }
  }

  /** A landed unlike removes exactly that user from the likers and moves
      `likesCount` down by one, whether or not that user had liked it. */
  lemma UnlikePostEffect(s: Store, postId: string, userId: string)
    requires PostPath(postId) in s
    ensures var s' := UnlikePost(s, postId, userId, None, None).store;
      && PostLikers(s', postId) == PostLikers(s, postId) - {userId}
      && Counter(s', PostPath(postId), "likesCount") == Counter(s, PostPath(postId), "likesCount") - 1
  {
    var s' := UnlikePost(s, postId, userId, None, None).store;
    forall u ensures u in PostLikers(s', postId) <==> u in PostLikers(s, postId) - {userId} {
      if u != userId {
        assert PostLikePath(postId, u) !in {PostLikePath(postId, userId), PostPath(postId)};
      }
    }
  }

  /** Liking twice leaves one like record but counts two likes. */
  lemma LikeTwiceCountsTwice(s: Store, postId: string, userId: string, t1: int, t2: int)
    requires PostPath(postId) in s
    ensures var s2 := LikePost(LikePost(s, postId, userId, t1, None, None).store, postId, userId, t2, None, None).store;
      && PostLikers(s2, postId) == PostLikers(s, postId) + {userId}
      && Counter(s2, PostPath(postId), "likesCount") == Counter(s, PostPath(postId), "likesCount") + 2
  {
    var s1 := LikePost(s, postId, userId, t1, None, None).store;
    LikePostEffect(s, postId, userId, t1);
    LikePostEffect(s1, postId, userId, t2);
  }

  /** Unliking without a like record leaves the likers as they were and
      still counts one like fewer; from zero, the count goes negative. */
  lemma UnlikeWithoutLike(s: Store, postId: string, userId: string)
    requires PostPath(postId) in s && userId !in PostLikers(s, postId)
    ensures var s' := UnlikePost(s, postId, userId, None, None).store;
      && PostLikers(s', postId) == PostLikers(s, postId)
      && Counter(s', PostPath(postId), "likesCount") == Counter(s, PostPath(postId), "likesCount") - 1
  {
    UnlikePostEffect(s, postId, userId);
  }

  /** The same for comments. */
  lemma LikeCommentEffect(s: Store, postId: string, commentId: string, userId: string, now: int)
    requires CommentPath(postId, commentId) in s
    ensures var s' := LikeComment(s, postId, commentId, userId, now, None, None).store;
      && CommentLikers(s', postId, commentId) == CommentLikers(s, postId, commentId) + {userId}
      && Counter(s', CommentPath(postId, commentId), "likesCount")
         == Counter(s, CommentPath(postId, commentId), "likesCount") + 1
  {
    var s' := LikeComment(s, postId, commentId, userId, now, None, None).store;
    forall u ensures u in CommentLikers(s', postId, commentId) <==> u in CommentLikers(s, postId, commentId) + {userId} {
      if u != userId {
        assert CommentLikePath(postId, commentId, u)
          !in {CommentLikePath(postId, commentId, userId), CommentPath(postId, commentId)};
      }
    }
  }

  lemma UnlikeCommentEffect(s: Store, postId: string, commentId: string, userId: string)
    requires CommentPath(postId, commentId) in s
    ensures var s' := UnlikeComment(s, postId, commentId, userId, None, None).store;
      && CommentLikers(s', postId, commentId) == CommentLikers(s, postId, commentId) - {userId}
      && Counter(s', CommentPath(postId, commentId), "likesCount")
         == Counter(s, CommentPath(postId, commentId), "likesCount") - 1
  {
    var s' := UnlikeComment(s, postId, commentId, userId, None, None).store;
    forall u ensures u in CommentLikers(s', postId, commentId) <==> u in CommentLikers(s, postId, commentId) - {userId} {
      if u != userId {
        assert CommentLikePath(postId, commentId, u)
          !in {CommentLikePath(postId, commentId, userId), CommentPath(postId, commentId)};
      }
    }
  }

  /** A like whose counter write is lost leaves the record without the
      count: the counter and the number of likers can disagree. */
  lemma LostCounterWrite(s: Store, postId: string, userId: string, now: int, lost: string)
    requires PostPath(postId) in s
    ensures var r := LikePost(s, postId, userId, now, None, Some(lost));
      && r.result == Ok(())
      && userId in PostLikers(r.store, postId)
      && Counter(r.store, PostPath(postId), "likesCount") == Counter(s, PostPath(postId), "likesCount")
  {
  }

  /** As declared, `likePost` never records a like: a user who has not
      liked the post is still missing from its likers afterwards and the
      count stays, while the call with `setDoc` in scope records the like
      and counts it. */
  lemma LikePostAsWrittenNeverLikes(s: Store, postId: string, userId: string, now: int, counter: Fault,
                                     referenceError: string)
    requires PostPath(postId) in s && userId !in PostLikers(s, postId)
    ensures var r := LikePostAsWritten(s, postId, userId, now, counter, referenceError);
      && r.result.Err?
      && userId !in PostLikers(r.store, postId)
      && Counter(r.store, PostPath(postId), "likesCount") == Counter(s, PostPath(postId), "likesCount")
    ensures var r := LikePost(s, postId, userId, now, None, None);
      && r.result == Ok(())
      && userId in PostLikers(r.store, postId)
      && Counter(r.store, PostPath(postId), "likesCount") == Counter(s, PostPath(postId), "likesCount") + 1
  {
    LikePostEffect(s, postId, userId, now);
  }

  /** The same for `likeComment`. */
  lemma LikeCommentAsWrittenNeverLikes(s: Store, postId: string, commentId: string, userId: string, now: int,
                                       counter: Fault, referenceError: string)
    requires CommentPath(postId, commentId) in s && userId !in CommentLikers(s, postId, commentId)
    ensures var r := LikeCommentAsWritten(s, postId, commentId, userId, now, counter, referenceError);
      && r.result.Err?
      && userId !in CommentLikers(r.store, postId, commentId)
      && Counter(r.store, CommentPath(postId, commentId), "likesCount")
         == Counter(s, CommentPath(postId, commentId), "likesCount")
    ensures var r := LikeComment(s, postId, commentId, userId, now, None, None);
      && r.result == Ok(())
      && userId in CommentLikers(r.store, postId, commentId)
      && Counter(r.store, CommentPath(postId, commentId), "likesCount")
         == Counter(s, CommentPath(postId, commentId), "likesCount") + 1
  {
    LikeCommentEffect(s, postId, commentId, userId, now);
  }

  // ---- Comments and replies ----

  /** The ids of the comments stored under a post. */
  function CommentIds(s: Store, postId: string): (r: set<string>)
    ensures forall c :: c in r <==> CommentPath(postId, c) in s
  {
    assert forall c :: CommentsCollection(postId) + [c] == CommentPath(postId, c);
    Ids(s, CommentsCollection(postId))
  }

  function ReplyIds(s: Store, postId: string, commentId: string): (r: set<string>)
    ensures forall x :: x in r <==> ReplyPath(postId, commentId, x) in s
  {
    assert forall x :: RepliesCollection(postId, commentId) + [x] == ReplyPath(postId, commentId, x);
    Ids(s, RepliesCollection(postId, commentId))
  }

  /** Creating a comment under a fresh id adds exactly that comment and
      counts it on the post. */
  lemma CreateCommentAddsOne(s: Store, postId: string, data: Doc, newId: string, now: int)
    requires PostPath(postId) in s && CommentPath(postId, newId) !in s
    ensures var s' := CreateComment(s, postId, data, newId, now, None, None).store;
      && CommentIds(s', postId) == CommentIds(s, postId) + {newId}
      && |CommentIds(s', postId)| == |CommentIds(s, postId)| + 1
      && Counter(s', PostPath(postId), "commentsCount") == Counter(s, PostPath(postId), "commentsCount") + 1
  {
    var s' := CreateComment(s, postId, data, newId, now, None, None).store;
    forall c ensures c in CommentIds(s', postId) <==> c in CommentIds(s, postId) + {newId} {
      if c != newId {
        assert CommentPath(postId, c) !in {CommentPath(postId, newId), PostPath(postId)};
      }
    }
  }

  /** Deleting a comment removes only that comment: its replies stay,
      still listed under it, and the post counts one comment fewer. */
  lemma DeleteCommentKeepsReplies(s: Store, postId: string, commentId: string)
    requires PostPath(postId) in s
    ensures var s' := DeleteComment(s, postId, commentId, None, None).store;
      && CommentIds(s', postId) == CommentIds(s, postId) - {commentId}
      && ReplyIds(s', postId, commentId) == ReplyIds(s, postId, commentId)
      && (forall x :: Unchanged(s, s', ReplyPath(postId, commentId, x)))
      && Counter(s', PostPath(postId), "commentsCount") == Counter(s, PostPath(postId), "commentsCount") - 1
  {
    var s' := DeleteComment(s, postId, commentId, None, None).store;
    var touched := {CommentPath(postId, commentId), PostPath(postId)};
    forall c ensures c in CommentIds(s', postId) <==> c in CommentIds(s, postId) - {commentId} {
      if c != commentId {
        assert CommentPath(postId, c) !in touched;
      }
    }
    forall x ensures x in ReplyIds(s', postId, commentId) <==> x in ReplyIds(s, postId, commentId) {
      assert ReplyPath(postId, commentId, x) !in touched;
    }
  }

  /** The operations under which a comment's `repliesCount` can only grow:
      all but an update that sets the field itself and a comment created
      over an existing id. */
  predicate KeepsReplyCounts(s: Store, op: Op) {
    match op
    case CreateCommentOp(p, _, id, _, _, _) => CommentPath(p, id) !in s
    case UpdateCommentOp(_, _, data, _, _) => "repliesCount" !in data
    case _ => true
  }

  /** `repliesCount` never goes down while the comment exists. */
  lemma RepliesCountMonotone(s: Store, op: Op, postId: string, commentId: string)
    requires KeepsReplyCounts(s, op)
    requires CommentPath(postId, commentId) in s && CommentPath(postId, commentId) in Apply(s, op)
    ensures Counter(s, CommentPath(postId, commentId), "repliesCount")
            <= Counter(Apply(s, op), CommentPath(postId, commentId), "repliesCount")
  {
    var target := CommentPath(postId, commentId);
    var s' := Apply(s, op);
    if op.CreateCommentOp? {
      assert target != CommentPath(op.postId, op.newId);
    }
    if target !in Touched(op) {
      ApplyFrame(s, op, target);
    }
  }

  // ---- A conversation ----

  /** The document at `p` exists and was created at `now`. */
  predicate StampedAt(s: Store, p: Path, now: int) {
    p in s && "createdAt" in s[p] && s[p]["createdAt"] == Stamp(now)
  }

  /** A new post and one comment on it: the post counts that one comment. */
  lemma PostWithComment(s: Store, authorId: string, postId: string, commentId: string,
                        data: Doc, t1: int, t2: int)
    requires PostPath(postId) !in s
    requires CommentIds(s, postId) == {} && ReplyIds(s, postId, commentId) == {}
    ensures var s2 := CreateComment(CreatePost(s, authorId, data, postId, t1, None).store,
                                    postId, data, commentId, t2, None, None).store;
      && CommentPath(postId, commentId) in s2
      && Counter(s2, PostPath(postId), "commentsCount") == 1
      && CommentIds(s2, postId) == {commentId}
      && ReplyIds(s2, postId, commentId) == {}
  {
    NewPostHasNoComments(s, authorId, postId, commentId, data, t1);
    FirstComment(CreatePost(s, authorId, data, postId, t1, None).store, postId, commentId, data, t2);
  }

  /** A new post starts with no comments, no replies and a zero count. */
  lemma NewPostHasNoComments(s: Store, authorId: string, postId: string, commentId: string, data: Doc, t1: int)
    requires PostPath(postId) !in s
    requires CommentIds(s, postId) == {} && ReplyIds(s, postId, commentId) == {}
    ensures var s1 := CreatePost(s, authorId, data, postId, t1, None).store;
      && PostPath(postId) in s1
      && Counter(s1, PostPath(postId), "commentsCount") == 0
      && CommentIds(s1, postId) == {}
      && ReplyIds(s1, postId, commentId) == {}
  {
    var s1 := CreatePost(s, authorId, data, postId, t1, None).store;
    assert CommentIds(s1, postId) == {} by {
      forall c ensures CommentPath(postId, c) !in s1 {
        assert CommentPath(postId, c) != PostPath(postId);
      }
    }
    assert ReplyIds(s1, postId, commentId) == {} by {
      forall x ensures ReplyPath(postId, commentId, x) !in s1 {
        assert ReplyPath(postId, commentId, x) != PostPath(postId);
      }
    }
  }

  /** The first comment on a post with none: the post counts it and lists
      it alone, and it has no replies. */
  lemma FirstComment(s1: Store, postId: string, commentId: string, data: Doc, t2: int)
    requires PostPath(postId) in s1 && Counter(s1, PostPath(postId), "commentsCount") == 0
    requires CommentIds(s1, postId) == {} && ReplyIds(s1, postId, commentId) == {}
    ensures var s2 := CreateComment(s1, postId, data, commentId, t2, None, None).store;
      && CommentPath(postId, commentId) in s2
      && Counter(s2, PostPath(postId), "commentsCount") == 1
      && CommentIds(s2, postId) == {commentId}
      && ReplyIds(s2, postId, commentId) == {}
  {
    var s2 := CreateComment(s1, postId, data, commentId, t2, None, None).store;
    CreateCommentAddsOne(s1, postId, data, commentId, t2);
    assert ReplyIds(s2, postId, commentId) == {} by {
      forall x ensures ReplyPath(postId, commentId, x) !in s2 {
        assert ReplyPath(postId, commentId, x) !in {CommentPath(postId, commentId), PostPath(postId)};
      }
    }
  }

  /** The first reply to a comment: the comment's only reply, stamped with
      its creation time; the post is untouched. */
  lemma FirstReply(s: Store, postId: string, commentId: string, replyId: string, data: Doc, now: int)
    requires ReplyIds(s, postId, commentId) == {}
    ensures var s' := CreateReply(s, postId, commentId, data, replyId, now, None, None).store;
      && ReplyIds(s', postId, commentId) == {replyId}
      && StampedAt(s', ReplyPath(postId, commentId, replyId), now)
      && Unchanged(s, s', PostPath(postId))
      && CommentIds(s', postId) == CommentIds(s, postId)
  {
    var s' := CreateReply(s, postId, commentId, data, replyId, now, None, None).store;
    var touched := {ReplyPath(postId, commentId, replyId), CommentPath(postId, commentId)};
    assert PostPath(postId) !in touched;
    forall x ensures ReplyPath(postId, commentId, x) in s' <==> x == replyId {
      if x != replyId {
        assert ReplyPath(postId, commentId, x) !in touched;
      }
    }
    forall c ensures CommentPath(postId, c) in s' <==> CommentPath(postId, c) in s {
      if c != commentId {
        assert CommentPath(postId, c) !in touched;
      }
    }
  }

  /** The replies under `commentId` hold exactly `replyId`, stamped: the
      listing returns exactly it. */
  lemma OnlyReplyListed(s: Store, postId: string, commentId: string, replyId: string, now: int)
    requires ReplyIds(s, postId, commentId) == {replyId}
    requires StampedAt(s, ReplyPath(postId, commentId, replyId), now)
    ensures IsPage(s, RepliesCollection(postId, commentId), Asc, DefaultRepliesLimit, None, [replyId])
    ensures forall page :: IsPage(s, RepliesCollection(postId, commentId), Asc, DefaultRepliesLimit, None, page) ==>
              page == [replyId]
  {
    var replies := RepliesCollection(postId, commentId);
    assert replies + [replyId] == ReplyPath(postId, commentId, replyId);
    assert Stamped(s, replies, replyId);
    forall id | Eligible(s, replies, Asc, None, id) ensures id == replyId {
      assert replies + [id] == ReplyPath(postId, commentId, id);
    }
    forall page | IsPage(s, replies, Asc, DefaultRepliesLimit, None, page) ensures page == [replyId] {
      PageUnique(s, replies, Asc, DefaultRepliesLimit, None, page, [replyId]);
    }
  }

  /** A post, a comment on it, a reply to the comment, then the comment
      deleted: the post counts no comments again, the reply is still
      stored, and listing the replies under the deleted comment yields
      exactly it. */
  lemma OrphanedReply(s: Store, authorId: string, postId: string, commentId: string, replyId: string,
                      data: Doc, t1: int, t2: int, t3: int)
    requires PostPath(postId) !in s
    requires CommentIds(s, postId) == {} && ReplyIds(s, postId, commentId) == {}
    ensures
      var s2 := CreateComment(CreatePost(s, authorId, data, postId, t1, None).store,
                              postId, data, commentId, t2, None, None).store;
      var s3 := CreateReply(s2, postId, commentId, data, replyId, t3, None, None).store;
      var s4 := DeleteComment(s3, postId, commentId, None, None).store;
      && Counter(s4, PostPath(postId), "commentsCount") == 0
      && CommentIds(s4, postId) == {}
      && ReplyIds(s4, postId, commentId) == {replyId}
      && IsPage(s4, RepliesCollection(postId, commentId), Asc, DefaultRepliesLimit, None, [replyId])
      && forall page :: IsPage(s4, RepliesCollection(postId, commentId), Asc, DefaultRepliesLimit, None, page) ==>
           page == [replyId]
  {
    var s2 := CreateComment(CreatePost(s, authorId, data, postId, t1, None).store,
                            postId, data, commentId, t2, None, None).store;
    var s3 := CreateReply(s2, postId, commentId, data, replyId, t3, None, None).store;
    var s4 := DeleteComment(s3, postId, commentId, None, None).store;
    PostWithComment(s, authorId, postId, commentId, data, t1, t2);
    FirstReply(s2, postId, commentId, replyId, data, t3);
    DeleteCommentKeepsReplies(s3, postId, commentId);
    assert StampedAt(s4, ReplyPath(postId, commentId, replyId), t3);
    OnlyReplyListed(s4, postId, commentId, replyId, t3);
  }
}

=== FILE: create_post.dfy ===
/** The post composer: the checks `handleCreatePost` makes, the optional
    image upload, and the post record it hands to the content store. */
module CreatePostScreen {
  import opened Wrappers
  import opened Text
  import opened Documents
  import opened Backend
  import opened ContentStore
  import opened Session
  import opened StorageService

  const FillBoth := "Please fill in both title and content"
  const LoginToPost := "Please log in to create posts"
  const PostCreated := "Post created successfully!"

  /** An image is uploaded when one has been picked (`if (imageUri)`). */
  predicate HasImage(imageUri: Option<string>) {
    imageUri.Some? && imageUri.value != ""
  }

  /** The composer's `uploadImage(uri, userId)`: the download URL, or the
      error it rethrows, prefixed with "Failed to upload image: ". */
  function UploadPicked(uri: string, userId: string, now: int, t: Transfer): (r: Result<string>)
    ensures t.Delivered? ==> r == Ok(t.url)
    ensures !t.Delivered? ==> r == Err("Failed to upload image: " + t.message)
  {
    match UploadImageWithProgress(uri, userId, None, now, t)
    case Resolved(UploadOk(url, _)) => Ok(url)
    case Resolved(UploadErr(e)) => Err("Failed to upload image: " + e)
    case Rejected(m) => Err("Failed to upload image: " + m)
  }

  /** A post record with the given field values: the eleven fields of
      `postData`, with zero counters and one timestamp for both stamps. */
  function PostRecord(title: string, content: string, authorId: string, authorName: string, authorEmail: string,
                      imageUrl: Value, stamp: Value): Doc {
    map[
      "title" := Str(title),
      "content" := Str(content),
      "authorId" := Str(authorId),
      "authorName" := Str(authorName),
      "authorEmail" := Str(authorEmail),
      "imageUrl" := imageUrl,
      "createdAt" := stamp,
      "updatedAt" := stamp,
      "likesCount" := Num(0),
      "commentsCount" := Num(0),
      "viewsCount" := Num(0)
    ]
  }

  /** `imageUrl` as stored: the URL, or null when no image was uploaded. */
  function ImageValue(imageUrl: Option<string>): Value {
    if imageUrl.Some? then Str(imageUrl.value) else Null
  }

  /** The `postData` record: trimmed title and content, the author's id,
      display name (or email) and email, and the client's clock. */
  function PostData(title: string, content: string, user: Account, imageUrl: Option<string>, clientNow: int): Doc {
    PostRecord(Trim(title), Trim(content), user.uid, AuthorName(user), user.email, ImageValue(imageUrl), Stamp(clientNow))
  }

  /** What one press of the button did: the alert it showed, the store
      after it, whether an upload was started, and the created post's id. */
  datatype CreateRun = CreateRun(notice: Notice, store: Store, uploadStarted: bool, postId: Option<string>)

  /** The stored post as the composer meant it: `postData` with the
      store's own timestamp in place of the client's. */
  ghost predicate StoredAsComposed(d: Doc, title: string, content: string, user: Account, imageUrl: Option<string>, serverNow: int) {
    d == PostRecord(Trim(title), Trim(content), user.uid, AuthorName(user), user.email, ImageValue(imageUrl), Stamp(serverNow))
  }

  /** Both the title and the content hold something besides white space. */
  predicate Filled(title: string, content: string) {
    Trim(title) != "" && Trim(content) != ""
  }

  /** The upload step of `handleCreatePost`: no image gives a null URL;
      a picked image gives its download URL or the upload's error. */
  function UploadStep(imageUri: Option<string>, userId: string, now: int, upload: Transfer): (r: Result<Option<string>>)
    ensures !HasImage(imageUri) ==> r == Ok(None)
    ensures HasImage(imageUri) && upload.Delivered? ==> r == Ok(Some(upload.url))
    ensures HasImage(imageUri) && !upload.Delivered? ==> r == Err("Failed to upload image: " + upload.message)
  {
    if HasImage(imageUri) then
      match UploadPicked(imageUri.value, userId, now, upload)
      case Ok(url) => Ok(Some(url))
      case Err(e) => Err(e)
    else Ok(None)
  }

  /** `handleCreatePost()`. `user` is the signed-in user, `upload` what the
      transfer does to the picked image, `newId` the id the store assigns
      and `fault` whether the store write fails. */
  function HandleCreatePost(s: Store, title: string, content: string, imageUri: Option<string>, user: Option<Account>, upload: Transfer,
                            uploadNow: int, clientNow: int, newId: string, serverNow: int, fault: Fault)
    : (r: CreateRun)
    ensures !Filled(title, content) ==> r == CreateRun(ErrorNotice(FillBoth), s, false, None)
    ensures Filled(title, content) && user.None? ==> r == CreateRun(ErrorNotice(LoginToPost), s, false, None)
    ensures Filled(title, content) && user.Some? ==> r.uploadStarted == HasImage(imageUri)
    ensures HasImage(imageUri) && !upload.Delivered? && r.uploadStarted ==>
      r == CreateRun(ErrorNotice("Failed to create post: " + ("Failed to upload image: " + upload.message)), s, true, None)
    ensures Filled(title, content) && user.Some? && (HasImage(imageUri) ==> upload.Delivered?) && fault.Some? ==>
      r == CreateRun(ErrorNotice(fault.value), s, HasImage(imageUri), None)
    ensures r.postId.Some? <==>
      Filled(title, content) && user.Some? && (HasImage(imageUri) ==> upload.Delivered?) && fault.None?
    ensures r.postId.Some? ==>
      && r.postId.value == newId
      && r.notice == Notice("Success", PostCreated)
      && FrameOnly(s, r.store, {PostPath(newId)})
      && PostPath(newId) in r.store
      && StoredAsComposed(r.store[PostPath(newId)], title, content, user.value,
                          if HasImage(imageUri) then Some(upload.url) else None, serverNow)
  {
    if !Filled(title, content) then CreateRun(ErrorNotice(FillBoth), s, false, None)
    else if user.None? then CreateRun(ErrorNotice(LoginToPost), s, false, None)
    else
      var imageUrl := UploadStep(imageUri, user.value.uid, uploadNow, upload);
      if imageUrl.Err? then
        CreateRun(ErrorNotice("Failed to create post: " + imageUrl.error), s, true, None)
      else SubmitPost(s, title, content, user.value, imageUrl.value, HasImage(imageUri), clientNow, newId, serverNow, fault)
  }

  /** The part of `handleCreatePost` after the upload: build `postData` and
      create the post. */
  function SubmitPost(s: Store, title: string, content: string, user: Account, imageUrl: Option<string>, uploaded: bool,
                      clientNow: int, newId: string, serverNow: int, fault: Fault): (r: CreateRun)
    ensures r.uploadStarted == uploaded
    ensures fault.Some? ==> r == CreateRun(ErrorNotice(fault.value), s, uploaded, None)
    ensures fault.None? ==>
      && r.postId == Some(newId)
      && r.notice == Notice("Success", PostCreated)
      && FrameOnly(s, r.store, {PostPath(newId)})
      && PostPath(newId) in r.store
      && StoredAsComposed(r.store[PostPath(newId)], title, content, user, imageUrl, serverNow)
  {
    var created := CreatePost(s, user.uid, PostData(title, content, user, imageUrl, clientNow), newId, serverNow, fault);
    match created.result
    case Ok(id) =>
      ComposedPostStored(created.store[PostPath(newId)], title, content, user, imageUrl, clientNow, serverNow);
      CreateRun(Notice("Success", PostCreated), created.store, uploaded, Some(id))
    case Err(e) => CreateRun(ErrorNotice(e), created.store, uploaded, None)
  }

  /** The store's overlay on `postData` keeps the composed fields and
      replaces the client's timestamps with its own. */
  lemma ComposedPostStored(d: Doc, title: string, content: string, user: Account, imageUrl: Option<string>,
                           clientNow: int, serverNow: int)
    requires Overlays(d, PostData(title, content, user, imageUrl, clientNow), PostFields)
    requires d["authorId"] == Str(user.uid)
    requires d["likesCount"] == Num(0) && d["commentsCount"] == Num(0)
    requires d["createdAt"] == Stamp(serverNow) && d["updatedAt"] == Stamp(serverNow)
    ensures StoredAsComposed(d, title, content, user, imageUrl, serverNow)
  {
    OverlayOfRecord(d, Trim(title), Trim(content), user.uid, AuthorName(user), user.email, ImageValue(imageUrl),
                    Stamp(clientNow), Stamp(serverNow));
  }

  lemma OverlayOfRecord(d: Doc, title: string, content: string, authorId: string, authorName: string, authorEmail: string,
                        imageUrl: Value, clientStamp: Value, serverStamp: Value)
    requires Overlays(d, PostRecord(title, content, authorId, authorName, authorEmail, imageUrl, clientStamp), PostFields)
    requires d["authorId"] == Str(authorId)
    requires d["likesCount"] == Num(0) && d["commentsCount"] == Num(0)
    requires d["createdAt"] == serverStamp && d["updatedAt"] == serverStamp
    ensures d == PostRecord(title, content, authorId, authorName, authorEmail, imageUrl, serverStamp)
  {
    var e := PostRecord(title, content, authorId, authorName, authorEmail, imageUrl, serverStamp);
    assert d.Keys == e.Keys;
    forall f | f in d ensures d[f] == e[f] {
      if f in PostFields {
      }
    }
  }

  /** The refusals come before any upload: a blank title or content, or no
      signed-in user, never starts one and never writes. */
  lemma GuardsBeforeUpload(s: Store, title: string, content: string, imageUri: Option<string>, user: Option<Account>, upload: Transfer,
                           uploadNow: int, clientNow: int, newId: string, serverNow: int, fault: Fault)
    requires !Filled(title, content) || user.None?
    ensures var r := HandleCreatePost(s, title, content, imageUri, user, upload, uploadNow, clientNow, newId, serverNow, fault);
      !r.uploadStarted && r.store == s && r.postId.None?
  {
  }
}

=== FILE: documents.dfy ===
/** Documents as the services see them: plain JavaScript objects whose fields
    hold strings, numbers, booleans, null or timestamps. */
module Documents {
  import opened Wrappers

  /** A field value. Numbers are integers; `Stamp` is a point in time in
      milliseconds (a server timestamp or a client `new Date()`). */
  datatype Value = Null | Bool(b: bool) | Num(n: int) | Str(s: string) | Stamp(ms: int)

  /** A document's fields. */
  type Doc = map<string, Value>

  /** A document or collection address: its path segments, e.g.
      `["posts", postId, "comments", commentId]`. */
  type Path = seq<string>

  /** JavaScript truthiness of a defined value. */
  predicate Truthy(v: Value) {
    match v
    case Null => false
    case Bool(b) => b
    case Num(n) => n != 0
    case Str(s) => s != ""
    case Stamp(_) => true
  }

  /** Reading `d.f`: `None` stands for `undefined`. */
  function Get(d: Doc, f: string): Option<Value> {
    if f in d then Some(d[f]) else None
  }

  /** `d.f || fallback`: the field when it is truthy, otherwise the fallback. */
  function OrElse(d: Doc, f: string, fallback: Value): (r: Value)
    ensures f in d && Truthy(d[f]) ==> r == d[f]
    ensures !(f in d && Truthy(d[f])) ==> r == fallback
  {
    if f in d && Truthy(d[f]) then d[f] else fallback
  }

  /** `{ ...base, ...over }`: every field of either, `over` winning on clashes. */
  function Spread(base: Doc, over: Doc): (r: Doc)
    ensures r.Keys == base.Keys + over.Keys
    ensures forall f :: f in over ==> r[f] == over[f]
    ensures forall f :: f in base && f !in over ==> r[f] == base[f]
  {
    base + over
  }

  /** The number an `increment(delta)` transform starts from: the field's
      value when it is a number, otherwise 0 (the transform then simply sets
      the field to `delta`). */
  function NumOrZero(d: Doc, f: string): int {
    if f in d && d[f].Num? then d[f].n else 0
  }

  /** `d'` is `d` after an `increment(delta)` of field `f`: that field now
      holds its old number plus `delta`, every other field is as it was. */
  ghost predicate Adjusted(d: Doc, d': Doc, f: string, delta: int) {
    && d'.Keys == d.Keys + {f}
    && d'[f] == Num(NumOrZero(d, f) + delta)
    && forall g :: g in d && g != f ==> d'[g] == d[g]
  }

  /** The document after an `increment(delta)` of field `f`. */
  function Bump(d: Doc, f: string, delta: int): (r: Doc)
    ensures Adjusted(d, r, f, delta)
  {
    d[f := Num(NumOrZero(d, f) + delta)]
  }

  /** `{ id: docId, ...data }`: a document as the services hand it out. A
      stored field named "id" shadows the document id. */
  function WithId(id: string, d: Doc): (r: Doc)
    ensures r.Keys == d.Keys + {"id"}
    ensures forall f :: f in d ==> r[f] == d[f]
    ensures "id" !in d ==> r["id"] == Str(id)
  {
    Spread(map["id" := Str(id)], d)
  }
}

=== FILE: paging.dfy ===
/** Ordered, bounded, cursor-based listing of one collection:
    `query(collection, orderBy('createdAt', dir), limit(n), startAfter(cursor))`.
    The backend breaks ties between equal `createdAt` values by document id,
    in the same direction, and leaves out documents that have no timestamp
    in `createdAt`. */
module Paging {
  import opened Wrappers
  import opened Text
  import opened Documents
  import opened Backend

  datatype Direction = Asc | Desc

  /** Where a document sits in the order: its `createdAt` and its id. A
      cursor is the key of the document the previous page ended with. */
  datatype SortKey = SortKey(at: int, id: string)

  predicate KeyLess(a: SortKey, b: SortKey) {
    a.at < b.at || (a.at == b.at && StrLess(a.id, b.id))
  }

  /** `a` comes before `b` in a listing ordered in direction `dir`. */
  predicate Precedes(dir: Direction, a: SortKey, b: SortKey) {
    if dir == Asc then KeyLess(a, b) else KeyLess(b, a)
  }

  lemma PrecedesIrreflexive(dir: Direction, a: SortKey)
    ensures !Precedes(dir, a, a)
  {
    StrLessIrreflexive(a.id);
  }

  lemma PrecedesAsymmetric(dir: Direction, a: SortKey, b: SortKey)
    requires Precedes(dir, a, b)
    ensures !Precedes(dir, b, a)
  {
    if Precedes(dir, b, a) {
      if a.at == b.at {
        StrLessTransitive(a.id, b.id, a.id);
        StrLessIrreflexive(a.id);
      }
    }
  }

  lemma PrecedesTransitive(dir: Direction, a: SortKey, b: SortKey, c: SortKey)
    requires Precedes(dir, a, b) && Precedes(dir, b, c)
    ensures Precedes(dir, a, c)
  {
    if a.at == b.at == c.at {
      if dir == Asc { StrLessTransitive(a.id, b.id, c.id); }
      else { StrLessTransitive(c.id, b.id, a.id); }
    }
  }

  lemma PrecedesTotal(dir: Direction, a: SortKey, b: SortKey)
    requires a.id != b.id
    ensures Precedes(dir, a, b) || Precedes(dir, b, a)
  {
    StrLessTotal(a.id, b.id);
  }

  /** The document `collection/id` exists and has a timestamp `createdAt`. */
  predicate Stamped(s: Store, collection: Path, id: string) {
    var p := collection + [id];
    p in s && "createdAt" in s[p] && s[p]["createdAt"].Stamp?
  }

  /** The sort key of `collection/id` (meaningful when it is stamped). */
  function KeyOf(s: Store, collection: Path, id: string): (k: SortKey)
    ensures k.id == id
  {
    SortKey(if Stamped(s, collection, id) then s[collection + [id]]["createdAt"].ms else 0, id)
  }

  /** `collection/id` is one of the documents the query can return: stamped,
      and strictly after the cursor when there is one. */
  predicate Eligible(s: Store, collection: Path, dir: Direction, cursor: Option<SortKey>, id: string) {
    && Stamped(s, collection, id)
    && (cursor.None? || Precedes(dir, cursor.value, KeyOf(s, collection, id)))
  }

  /** `page` is the answer to the query: at most `limit` eligible ids, in
      strictly increasing order, and every eligible id it leaves out comes
      after its last one (so it leaves one out only when it is full). */
  ghost predicate IsPage(s: Store, collection: Path, dir: Direction, limit: nat,
                         cursor: Option<SortKey>, page: seq<string>) {
    && |page| <= limit
    && (forall i :: 0 <= i < |page| ==> Eligible(s, collection, dir, cursor, page[i]))
    && (forall i, j :: 0 <= i < j < |page| ==>
          Precedes(dir, KeyOf(s, collection, page[i]), KeyOf(s, collection, page[j])))
    && (forall id :: Eligible(s, collection, dir, cursor, id) && id !in page ==>
          && |page| == limit
          && (0 < |page| ==> Precedes(dir, KeyOf(s, collection, page[|page| - 1]), KeyOf(s, collection, id))))
  }

  /** The ids of all eligible documents. */
  function EligibleIds(s: Store, collection: Path, dir: Direction, cursor: Option<SortKey>): (r: set<string>)
    ensures forall id :: id in r <==> Eligible(s, collection, dir, cursor, id)
  {
    var n := |collection|;
    var r := set p | p in s.Keys && |p| == n + 1 && p[..n] == collection
                     && Eligible(s, collection, dir, cursor, p[n]) :: p[n];
    assert forall id :: Eligible(s, collection, dir, cursor, id) ==> id in r by {
      forall id | Eligible(s, collection, dir, cursor, id) ensures id in r {
        var p := collection + [id];
        assert p[..n] == collection && p[n] == id;
      }
    }
    assert forall id :: id in r ==> Eligible(s, collection, dir, cursor, id) by {
      forall id | id in r ensures Eligible(s, collection, dir, cursor, id) {
        var p :| p in s.Keys && |p| == n + 1 && p[..n] == collection
                 && Eligible(s, collection, dir, cursor, p[n]) && p[n] == id;
        assert p == collection + [id];
      }
    }
    r
  }

  /** A finite non-empty set of ids has a first element in the order. */
  lemma {:induction false} FirstExists(s: Store, collection: Path, dir: Direction, pool: set<string>)
    requires pool != {}
    ensures exists m :: m in pool && forall o :: o in pool && o != m ==>
              Precedes(dir, KeyOf(s, collection, m), KeyOf(s, collection, o))
    decreases |pool|
  {
    var x :| x in pool;
    var rest := pool - {x};
    if rest == {} {
      assert pool == {x};
    } else {
      FirstExists(s, collection, dir, rest);
      var m :| m in rest && forall o :: o in rest && o != m ==>
                 Precedes(dir, KeyOf(s, collection, m), KeyOf(s, collection, o));
      var kx, km := KeyOf(s, collection, x), KeyOf(s, collection, m);
      PrecedesTotal(dir, kx, km);
      if Precedes(dir, kx, km) {
        forall o | o in pool && o != x
          ensures Precedes(dir, kx, KeyOf(s, collection, o))
        {
          if o != m { PrecedesTransitive(dir, kx, km, KeyOf(s, collection, o)); }
        }
      } else {
        assert forall o :: o in pool && o != m ==>
                 Precedes(dir, km, KeyOf(s, collection, o));
      }
    }
  }

  /** The state of the query loop: `page` holds eligible ids in order,
      `pool` holds exactly the eligible ids not taken yet, and all of them
      come after the last id taken. */
  ghost predicate Progress(s: Store, collection: Path, dir: Direction, cursor: Option<SortKey>,
                           page: seq<string>, pool: set<string>) {
    && (forall id :: id in pool <==> Eligible(s, collection, dir, cursor, id) && id !in page)
    && (forall i :: 0 <= i < |page| ==> Eligible(s, collection, dir, cursor, page[i]))
    && (forall i, j :: 0 <= i < j < |page| ==>
          Precedes(dir, KeyOf(s, collection, page[i]), KeyOf(s, collection, page[j])))
    && (|page| > 0 ==> forall id :: id in pool ==>
          Precedes(dir, KeyOf(s, collection, page[|page| - 1]), KeyOf(s, collection, id)))
  }

  /** Taking the first id of the pool keeps the loop state. */
  lemma ProgressStep(s: Store, collection: Path, dir: Direction, cursor: Option<SortKey>,
                     page: seq<string>, pool: set<string>, next: string)
    requires Progress(s, collection, dir, cursor, page, pool)
    requires next in pool
    requires forall o :: o in pool && o != next ==>
               Precedes(dir, KeyOf(s, collection, next), KeyOf(s, collection, o))
    ensures Progress(s, collection, dir, cursor, page + [next], pool - {next})
  {
    var page' := page + [next];
    forall i, j | 0 <= i < j < |page'|
      ensures Precedes(dir, KeyOf(s, collection, page'[i]), KeyOf(s, collection, page'[j]))
    {
      if j == |page| && i < |page| - 1 {
        PrecedesTransitive(dir, KeyOf(s, collection, page[i]),
                           KeyOf(s, collection, page[|page| - 1]), KeyOf(s, collection, next));
      }
    }
  }

  /** When the loop stops, the page meets the specification. */
  lemma ProgressDone(s: Store, collection: Path, dir: Direction, limit: nat, cursor: Option<SortKey>,
                     page: seq<string>, pool: set<string>)
    requires Progress(s, collection, dir, cursor, page, pool)
    requires |page| <= limit && (|page| == limit || pool == {})
    ensures IsPage(s, collection, dir, limit, cursor, page)
  {
    forall id | Eligible(s, collection, dir, cursor, id) && id !in page
      ensures |page| == limit
      ensures 0 < |page| ==> Precedes(dir, KeyOf(s, collection, page[|page| - 1]), KeyOf(s, collection, id))
    {
      assert id in pool;
    }
  }

  /** Run the query: repeatedly take the first of the eligible ids not yet
      taken, until the page is full or none is left. */
  method Query(s: Store, collection: Path, dir: Direction, limit: nat, cursor: Option<SortKey>)
    returns (page: seq<string>)
    ensures IsPage(s, collection, dir, limit, cursor, page)
  {
    var pool := EligibleIds(s, collection, dir, cursor);
    page := [];
    assert Progress(s, collection, dir, cursor, page, pool);
    while |page| < limit && pool != {}
      invariant |page| <= limit
      invariant Progress(s, collection, dir, cursor, page, pool)
      decreases |pool|
    {
      FirstExists(s, collection, dir, pool);
      var next :| next in pool && forall o :: o in pool && o != next ==>
                    Precedes(dir, KeyOf(s, collection, next), KeyOf(s, collection, o));
      ProgressStep(s, collection, dir, cursor, page, pool, next);
      page := page + [next];
      pool := pool - {next};
    }
    ProgressDone(s, collection, dir, limit, cursor, page, pool);
  }

  /** The query's answer is determined by its inputs: two pages that both
      meet the specification are the same page. */
  lemma PageUnique(s: Store, collection: Path, dir: Direction, limit: nat,
                   cursor: Option<SortKey>, p: seq<string>, q: seq<string>)
    requires IsPage(s, collection, dir, limit, cursor, p)
    requires IsPage(s, collection, dir, limit, cursor, q)
    ensures p == q
  {
    var n := if |p| <= |q| then |p| else |q|;
    forall i | 0 <= i < n ensures p[i] == q[i] {
      SamePrefix(s, collection, dir, limit, cursor, p, q, i);
    }
    NotShorter(s, collection, dir, limit, cursor, p, q);
    NotShorter(s, collection, dir, limit, cursor, q, p);
  }

  /** Two pages agree at every index both have. */
  lemma {:induction false} SamePrefix(s: Store, collection: Path, dir: Direction, limit: nat,
                   cursor: Option<SortKey>, p: seq<string>, q: seq<string>, i: nat)
    requires IsPage(s, collection, dir, limit, cursor, p)
    requires IsPage(s, collection, dir, limit, cursor, q)
    requires i < |p| && i < |q|
    ensures p[i] == q[i]
    decreases i
  {
    forall j | 0 <= j < i ensures p[j] == q[j] {
      SamePrefix(s, collection, dir, limit, cursor, p, q, j);
    }
    if p[i] != q[i] {
      var kp, kq := KeyOf(s, collection, p[i]), KeyOf(s, collection, q[i]);
      PrecedesTotal(dir, kp, kq);
      if Precedes(dir, kp, kq) {
        NotBefore(s, collection, dir, limit, cursor, p, q, i);
      } else {
        NotBefore(s, collection, dir, limit, cursor, q, p, i);
      }
    }
  }

  /** If `p` and `q` agree before index `i`, `p[i]` cannot come strictly
      before `q[i]`. */
  lemma NotBefore(s: Store, collection: Path, dir: Direction, limit: nat,
                  cursor: Option<SortKey>, p: seq<string>, q: seq<string>, i: nat)
    requires IsPage(s, collection, dir, limit, cursor, p)
    requires IsPage(s, collection, dir, limit, cursor, q)
    requires i < |p| && i < |q|
    requires forall j :: 0 <= j < i ==> p[j] == q[j]
    ensures !Precedes(dir, KeyOf(s, collection, p[i]), KeyOf(s, collection, q[i]))
  {
    var kp, kq := KeyOf(s, collection, p[i]), KeyOf(s, collection, q[i]);
    if Precedes(dir, kp, kq) {
      if p[i] in q {
        var j :| 0 <= j < |q| && q[j] == p[i];
        if j < i {
          assert p[j] == p[i];
          PrecedesIrreflexive(dir, kp);
        } else if j == i {
          PrecedesIrreflexive(dir, kp);
        } else {
          PrecedesAsymmetric(dir, kq, kp);
        }
      } else {
        var last := KeyOf(s, collection, q[|q| - 1]);
        if i < |q| - 1 {
          PrecedesTransitive(dir, kq, last, kp);
        }
        PrecedesTransitive(dir, kp, kq, kp);
        PrecedesIrreflexive(dir, kp);
      }
    }
  }

  /** A page that agrees with another on their common indices is at least
      as long: were it shorter, it would be full, and the other would exceed
      the limit. */
  lemma NotShorter(s: Store, collection: Path, dir: Direction, limit: nat,
                   cursor: Option<SortKey>, p: seq<string>, q: seq<string>)
    requires IsPage(s, collection, dir, limit, cursor, p)
    requires IsPage(s, collection, dir, limit, cursor, q)
    requires forall i :: 0 <= i < |p| && i < |q| ==> p[i] == q[i]
    ensures |q| <= |p|
  {
    if |p| < |q| {
      var x := q[|p|];
      if x in p {
        var j :| 0 <= j < |p| && p[j] == x;
        assert q[j] == q[|p|];
        PrecedesIrreflexive(dir, KeyOf(s, collection, x));
      }
    }
  }

  /** Paging forward neither overlaps nor skips: a full page followed by the
      page that starts after its last document is the page of both sizes
      together. */
  lemma ConsecutivePages(s: Store, collection: Path, dir: Direction, cursor: Option<SortKey>,
                         n: nat, m: nat, p1: seq<string>, p2: seq<string>)
    requires IsPage(s, collection, dir, n, cursor, p1) && 0 < |p1| == n
    requires IsPage(s, collection, dir, m, Some(KeyOf(s, collection, p1[n - 1])), p2)
    ensures IsPage(s, collection, dir, n + m, cursor, p1 + p2)
    ensures forall i, j :: 0 <= i < |p1| && 0 <= j < |p2| ==> p1[i] != p2[j]
  {
    var both := p1 + p2;
    var last := KeyOf(s, collection, p1[n - 1]);
    forall i | 0 <= i < |p2| ensures Eligible(s, collection, dir, cursor, p2[i]) {
      if cursor.Some? {
        assert Eligible(s, collection, dir, cursor, p1[n - 1]);
        PrecedesTransitive(dir, cursor.value, last, KeyOf(s, collection, p2[i]));
      }
    }
    forall i, j | 0 <= i < j < |both|
      ensures Precedes(dir, KeyOf(s, collection, both[i]), KeyOf(s, collection, both[j]))
    {
      if i < n <= j {
        if i < n - 1 {
          PrecedesTransitive(dir, KeyOf(s, collection, p1[i]), last, KeyOf(s, collection, p2[j - n]));
        }
      }
    }
    forall id | Eligible(s, collection, dir, cursor, id) && id !in both
      ensures 0 < |both| == n + m
      ensures Precedes(dir, KeyOf(s, collection, both[|both| - 1]), KeyOf(s, collection, id))
    {
      assert id !in p1 && id !in p2;
      assert Eligible(s, collection, dir, Some(last), id);
    }
    forall i, j | 0 <= i < |p1| && 0 <= j < |p2| ensures p1[i] != p2[j] {
      assert both[i] == p1[i] && both[n + j] == p2[j];
      if p1[i] == p2[j] { PrecedesIrreflexive(dir, KeyOf(s, collection, p1[i])); }
    }
  }

  /** A page that is not full is the last one: the page after it is empty. */
  lemma AfterLastPage(s: Store, collection: Path, dir: Direction, cursor: Option<SortKey>,
                      n: nat, m: nat, p1: seq<string>, p2: seq<string>)
    requires IsPage(s, collection, dir, n, cursor, p1) && 0 < |p1| < n
    requires IsPage(s, collection, dir, m, Some(KeyOf(s, collection, p1[|p1| - 1])), p2)
    ensures p2 == []
  {
    if |p2| > 0 {
      var x := p2[0];
      var last := KeyOf(s, collection, p1[|p1| - 1]);
      if cursor.Some? {
        assert Eligible(s, collection, dir, cursor, p1[|p1| - 1]);
        PrecedesTransitive(dir, cursor.value, last, KeyOf(s, collection, x));
      }
      assert Eligible(s, collection, dir, cursor, x);
      if x in p1 {
        var j :| 0 <= j < |p1| && p1[j] == x;
        if j < |p1| - 1 {
          PrecedesTransitive(dir, KeyOf(s, collection, x), last, KeyOf(s, collection, x));
        }
        PrecedesIrreflexive(dir, KeyOf(s, collection, x));
      }
    }
  }

  /** The SDK refuses a non-positive page size with this message. */
  function LimitMessage(n: int): string {
    "Function limit() requires a positive number, but it was: " + IntToString(n) + "."
  }

  /** One listing call of the services: build the query (where `limit`
      rejects a non-positive size), run it (the environment may fail it),
      and hand out `{ id, ...data }` for each document of the page, in page
      order. `ids` are the document ids of the page. */
  method List(s: Store, collection: Path, dir: Direction, limitCount: int,
              cursor: Option<SortKey>, fault: Fault)
    returns (r: Result<seq<Doc>>, ids: seq<string>)
    ensures limitCount <= 0 ==> r == Err(LimitMessage(limitCount))
    ensures limitCount > 0 && fault.Some? ==> r == Err(fault.value)
    ensures limitCount > 0 && fault.None? ==>
      && r.Ok?
      && IsPage(s, collection, dir, limitCount, cursor, ids)
      && |r.value| == |ids|
      && forall i :: 0 <= i < |ids| ==>
           collection + [ids[i]] in s && r.value[i] == WithId(ids[i], s[collection + [ids[i]]])
  {
    ids := [];
    if limitCount <= 0 {
      return Err(LimitMessage(limitCount)), ids;
    }
    if fault.Some? {
      return Err(fault.value), ids;
    }
    ids := Query(s, collection, dir, limitCount, cursor);
    var docs := seq(|ids|, i requires 0 <= i < |ids| => WithId(ids[i], s[collection + [ids[i]]]));
    r := Ok(docs);
  }
}

=== FILE: session.dfy ===
/** The signed-in user as the screens see it, and the name they credit a
    post or comment to. */
module Session {
  import opened Wrappers

  /** The current user: its id, email and optional profile name. */
  datatype Account = Account(uid: string, email: string, displayName: Option<string>)

  /** `user.displayName || user.email`. */
  function AuthorName(user: Account): (name: string)
    ensures user.displayName.Some? && user.displayName.value != "" ==> name == user.displayName.value
    ensures (user.displayName.None? || user.displayName.value == "") ==> name == user.email
  {
    match user.displayName
    case Some(n) => if n != "" then n else user.email
    case None => user.email
  }

  /** An alert a screen shows: its title and message. */
  datatype Notice = Notice(title: string, message: string)

  function ErrorNotice(message: string): Notice { Notice("Error", message) }
}

=== FILE: storage_service.dfy ===
/** Image uploads: the object name an upload is stored under, how one
    upload settles, and how a batch of uploads is summarised. The transfer
    itself (reading the picked file, sending its bytes, asking for the
    download URL) is an input: what it does to one upload. */
module StorageService {
  import opened Wrappers
  import opened Text

  /** The object name: `posts/{userId}/{postId}/{timestamp}.jpg` when a
      non-empty post id is given, `posts/{userId}/{timestamp}.jpg`
      otherwise. */
  function StoragePath(userId: string, postId: Option<string>, now: int): string {
    if postId.Some? && postId.value != "" then
      "posts/" + userId + "/" + postId.value + "/" + IntToString(now) + ".jpg"
    else "posts/" + userId + "/" + IntToString(now) + ".jpg"
  }

  /** Two uploads by the same user for the same post, started at different
      times, get different object names. */
  lemma {:induction false} StoragePathInjective(userId: string, postId: Option<string>, m: int, n: int)
    requires StoragePath(userId, postId, m) == StoragePath(userId, postId, n)
    ensures m == n
  {
    var dir := if postId.Some? && postId.value != "" then "posts/" + userId + "/" + postId.value + "/"
               else "posts/" + userId + "/";
    assert StoragePath(userId, postId, m) == dir + IntToString(m) + ".jpg";
    assert StoragePath(userId, postId, n) == dir + IntToString(n) + ".jpg";
    var x := StoragePath(userId, postId, m);
    assert IntToString(m) == x[|dir|..|x| - 4];
    assert IntToString(n) == x[|dir|..|x| - 4];
    IntToStringInjective(m, n);
  }

  /** The object name is its segments joined by '/'. */
  function StorageSegments(userId: string, postId: Option<string>, now: int): seq<string> {
    if postId.Some? && postId.value != "" then ["posts", userId, postId.value, IntToString(now) + ".jpg"]
    else ["posts", userId, IntToString(now) + ".jpg"]
  }

  /** Read back as segments, the object name holds the user id, the post id
      when there is one, and the file name built from the timestamp. */
  lemma StoragePathSegments(userId: string, postId: Option<string>, now: int)
    requires '/' !in userId
    requires postId.Some? ==> '/' !in postId.value
    ensures Split(StoragePath(userId, postId, now), '/') == StorageSegments(userId, postId, now)
  {
    var file := IntToString(now) + ".jpg";
    FileNameNoSlash(now);
    if postId.Some? && postId.value != "" {
      assert StoragePath(userId, postId, now) == "posts/" + userId + "/" + postId.value + "/" + file;
      SplitFourSegments(userId, postId.value, file);
    } else {
      assert StoragePath(userId, postId, now) == "posts/" + userId + "/" + file;
      SplitThreeSegments(userId, file);
    }
  }

  lemma SplitFourSegments(userId: string, p: string, file: string)
    requires '/' !in userId && '/' !in p && '/' !in file
    ensures Split("posts/" + userId + "/" + p + "/" + file, '/') == ["posts", userId, p, file]
  {
    var parts := ["posts", userId, p, file];
    JoinFourSegments(userId, p, file);
    SplitJoin(parts, '/');
  }

  lemma JoinFourSegments(userId: string, p: string, file: string)
    ensures "posts/" + userId + "/" + p + "/" + file == Join(["posts", userId, p, file], '/')
  {
    var parts := ["posts", userId, p, file];
    assert parts[1..][1..][1..] == [file];
    assert Join(parts[1..][1..], '/') == p + ['/'] + file;
    assert Join(parts[1..], '/') == userId + ['/'] + (p + ['/'] + file);
  }

  lemma SplitThreeSegments(userId: string, file: string)
    requires '/' !in userId && '/' !in file
    ensures Split("posts/" + userId + "/" + file, '/') == ["posts", userId, file]
  {
    var parts := ["posts", userId, file];
    assert parts[1..][1..] == [file];
    assert Join(parts[1..], '/') == userId + ['/'] + file;
    assert "posts/" + userId + "/" + file == Join(parts, '/');
    SplitJoin(parts, '/');
  }

  lemma FileNameNoSlash(now: int)
    ensures '/' !in IntToString(now) + ".jpg"
  {
    NoSlashInNumber(now);
    var file := IntToString(now) + ".jpg";
    assert file == IntToString(now) + ['.', 'j', 'p', 'g'];
  }

  lemma NoSlashInNumber(n: int)
    ensures '/' !in IntToString(n)
  {
    var r := IntToString(n);
    if n < 0 {
      assert r == "-" + NatToString(-n);
      assert forall k :: 1 <= k < |r| ==> IsDigit(r[k]);
    } else {
      assert forall k :: 0 <= k < |r| ==> IsDigit(r[k]);
    }
  }

  /** What the transfer does to one upload. */
  datatype Transfer =
    | FetchFailed(message: string)   // reading the picked file throws
    | SendFailed(message: string)    // the upload task reports an error
    | UrlFailed(message: string)     // asking for the download URL throws
    | Delivered(url: string)

  /** The object an upload call resolves to. */
  datatype UploadResult = UploadOk(url: string, path: string) | UploadErr(error: string)

  /** How the promise an upload call returns settles: resolved with a
      result, or rejected with an error that the call's own `try` does not
      see (it returns the promise without awaiting it). */
  datatype Settled = Resolved(result: UploadResult) | Rejected(message: string)

  /** `uploadImage(imageUri, userId, postId)`. */
  function UploadImage(imageUri: string, userId: string, postId: Option<string>, now: int, t: Transfer)
    : (r: Settled)
    ensures t.FetchFailed? ==> r == Resolved(UploadErr(t.message))
    ensures t.SendFailed? || t.UrlFailed? ==> r == Rejected(t.message)
    ensures t.Delivered? ==> r == Resolved(UploadOk(t.url, StoragePath(userId, postId, now)))
  {
    match t
    case FetchFailed(m) => Resolved(UploadErr(m))
    case SendFailed(m) => Rejected(m)
    case UrlFailed(m) => Rejected(m)
    case Delivered(url) => Resolved(UploadOk(url, StoragePath(userId, postId, now)))
  }

  /** `uploadImageWithProgress(imageUri, userId, postId, onProgress)`: the
      same upload, reporting progress (not modelled) along the way. */
  function UploadImageWithProgress(imageUri: string, userId: string, postId: Option<string>, now: int,
                                   t: Transfer): (r: Settled)
    ensures t.Delivered? ==> r.Resolved? && r.result.UploadOk? && r.result.url == t.url
  {
    match t
    case FetchFailed(m) => Resolved(UploadErr(m))
    case SendFailed(m) => Rejected(m)
    case UrlFailed(m) => Rejected(m)
    case Delivered(url) =>
      var filename := if postId.Some? && postId.value != "" then
                        "posts/" + userId + "/" + postId.value + "/" + IntToString(now) + ".jpg"
                      else "posts/" + userId + "/" + IntToString(now) + ".jpg";
      Resolved(UploadOk(url, filename))
  }

  /** The two upload calls name the object alike and settle alike. */
  lemma UploadsAgree(imageUri: string, userId: string, postId: Option<string>, now: int, t: Transfer)
    ensures UploadImageWithProgress(imageUri, userId, postId, now, t) == UploadImage(imageUri, userId, postId, now, t)
  {
  }

  // ---- Several uploads ----

  /** One image of a batch: its URI, the clock when its upload starts, and
      what the transfer does to it. */
  datatype Upload = Upload(uri: string, now: int, transfer: Transfer)

  /** The post id the `index`-th upload of a batch is filed under. */
  function BatchPostId(postId: string, index: nat): string {
    postId + "_" + IntToString(index)
  }

  /** Each upload of the batch, started with its own post id. */
  function SettleAll(uploads: seq<Upload>, userId: string, postId: string): (r: seq<Settled>)
    ensures |r| == |uploads|
    ensures forall i :: 0 <= i < |r| && r[i].Resolved? && r[i].result.UploadOk? ==>
      r[i].result.path == StoragePath(userId, Some(BatchPostId(postId, i)), uploads[i].now)
    ensures forall i :: 0 <= i < |r| ==>
      && (uploads[i].transfer.Delivered? ==>
            r[i] == Resolved(UploadOk(uploads[i].transfer.url, StoragePath(userId, Some(BatchPostId(postId, i)), uploads[i].now))))
      && (uploads[i].transfer.FetchFailed? ==> r[i] == Resolved(UploadErr(uploads[i].transfer.message)))
      && (uploads[i].transfer.SendFailed? || uploads[i].transfer.UrlFailed? ==> r[i] == Rejected(uploads[i].transfer.message))
  {
    seq(|uploads|, i requires 0 <= i < |uploads| =>
      UploadImage(uploads[i].uri, userId, Some(BatchPostId(postId, i)), uploads[i].now, uploads[i].transfer))
  }

  /** The rejection `Promise.all` reports, if any upload was rejected. */
  function FirstRejection(settled: seq<Settled>): (r: Option<string>)
    ensures r.None? <==> forall i :: 0 <= i < |settled| ==> settled[i].Resolved?
    ensures r.Some? ==> exists i :: 0 <= i < |settled| && settled[i] == Rejected(r.value)
  {
    if |settled| == 0 then None
    else if settled[0].Rejected? then Some(settled[0].message)
    else
      var rest := FirstRejection(settled[1..]);
      if rest.Some? then
        var j :| 0 <= j < |settled[1..]| && settled[1..][j] == Rejected(rest.value);
        assert settled[j + 1] == Rejected(rest.value);
        rest
      else
        assert forall i :: 1 <= i < |settled| ==> settled[1..][i - 1] == settled[i];
        None
  }

  /** The values a batch of resolved uploads resolves with, in order. */
  function Results(settled: seq<Settled>): (r: seq<UploadResult>)
    requires forall i :: 0 <= i < |settled| ==> settled[i].Resolved?
    ensures |r| == |settled|
    ensures forall i :: 0 <= i < |settled| ==> settled[i] == Resolved(r[i])
  {
    seq(|settled|, i requires 0 <= i < |settled| => settled[i].result)
  }

  /** The results of `results` that succeeded (`succeeded`) or failed,
      in order. */
  function Keep(results: seq<UploadResult>, succeeded: bool): (r: seq<UploadResult>)
    ensures |r| <= |results|
    ensures forall k :: 0 <= k < |r| ==> r[k].UploadOk? == succeeded
    ensures forall k :: 0 <= k < |r| ==> r[k] in results
  {
    if |results| == 0 then []
    else
      var rest := Keep(results[1..], succeeded);
      assert forall k :: 0 <= k < |rest| ==> rest[k] in results by {
        assert forall x :: x in results[1..] ==> x in results;
      }
      if results[0].UploadOk? == succeeded then [results[0]] + rest else rest
  }

  /** Successes and failures split the results between them. */
  lemma {:induction false} KeepPartitions(results: seq<UploadResult>)
    ensures multiset(Keep(results, true)) + multiset(Keep(results, false)) == multiset(results)
    ensures |Keep(results, true)| + |Keep(results, false)| == |results|
  {
    if |results| > 0 {
      KeepPartitions(results[1..]);
      assert results == [results[0]] + results[1..];
    }
  }

  /** Some result succeeded exactly when the successes are not empty. */
  lemma {:induction false} KeepNonEmpty(results: seq<UploadResult>)
    ensures |Keep(results, true)| > 0 <==> exists i :: 0 <= i < |results| && results[i].UploadOk?
  {
    if |results| > 0 {
      KeepNonEmpty(results[1..]);
      if !results[0].UploadOk? {
        assert forall i :: 1 <= i < |results| ==> results[1..][i - 1] == results[i];
      }
    }
  }

  /** In a batch that did not reject, every success comes from a delivered
      upload, with its URL and its object name. */
  lemma SuccessesDelivered(uploads: seq<Upload>, userId: string, postId: string)
    requires forall i :: 0 <= i < |uploads| ==> SettleAll(uploads, userId, postId)[i].Resolved?
    ensures var ok := Keep(Results(SettleAll(uploads, userId, postId)), true);
      forall k :: 0 <= k < |ok| ==>
        exists i ::
          && 0 <= i < |uploads|
          && uploads[i].transfer == Delivered(ok[k].url)
          && ok[k].path == StoragePath(userId, Some(BatchPostId(postId, i)), uploads[i].now)
  {
    var settled := SettleAll(uploads, userId, postId);
    var results := Results(settled);
    var ok := Keep(results, true);
    forall k | 0 <= k < |ok|
      ensures exists i ::
        && 0 <= i < |uploads|
        && uploads[i].transfer == Delivered(ok[k].url)
        && ok[k].path == StoragePath(userId, Some(BatchPostId(postId, i)), uploads[i].now)
    {
      var i :| 0 <= i < |results| && results[i] == ok[k];
      assert settled[i] == Resolved(ok[k]);
    }
  }

  /** In a batch that did not reject, every failure comes from an upload
      whose file could not be read, with that error. */
  lemma FailuresUnread(uploads: seq<Upload>, userId: string, postId: string)
    requires forall i :: 0 <= i < |uploads| ==> SettleAll(uploads, userId, postId)[i].Resolved?
    ensures var bad := Keep(Results(SettleAll(uploads, userId, postId)), false);
      forall k :: 0 <= k < |bad| ==>
        exists i :: 0 <= i < |uploads| && uploads[i].transfer == FetchFailed(bad[k].error)
  {
    var settled := SettleAll(uploads, userId, postId);
    var results := Results(settled);
    var bad := Keep(results, false);
    forall k | 0 <= k < |bad|
      ensures exists i :: 0 <= i < |uploads| && uploads[i].transfer == FetchFailed(bad[k].error)
    {
      var i :| 0 <= i < |results| && results[i] == bad[k];
      assert settled[i] == Resolved(bad[k]);
    }
  }

  /** In a batch that did not reject, some upload succeeded exactly when
      some transfer delivered. */
  lemma SomeDelivered(uploads: seq<Upload>, userId: string, postId: string)
    requires forall i :: 0 <= i < |uploads| ==> SettleAll(uploads, userId, postId)[i].Resolved?
    ensures |Keep(Results(SettleAll(uploads, userId, postId)), true)| > 0
            <==> exists i :: 0 <= i < |uploads| && uploads[i].transfer.Delivered?
  {
    var results := Results(SettleAll(uploads, userId, postId));
    KeepNonEmpty(results);
    assert forall i :: 0 <= i < |uploads| ==> (results[i].UploadOk? <==> uploads[i].transfer.Delivered?);
  }

  /** The summary `uploadMultipleImages` answers with. */
  datatype MultiUpload =
    | Summary(success: bool, successful: seq<UploadResult>, failed: seq<UploadResult>, total: nat)
    | BatchFailed(error: string)

  /** `uploadMultipleImages(imageUris, userId, postId)`. */
  function UploadMultipleImages(uploads: seq<Upload>, userId: string, postId: string): (r: MultiUpload)
    ensures var settled := SettleAll(uploads, userId, postId);
      && (r.BatchFailed? <==> exists i :: 0 <= i < |settled| && settled[i].Rejected?)
      && (r.BatchFailed? ==> exists i :: 0 <= i < |settled| && settled[i] == Rejected(r.error))
    ensures r.Summary? ==>
      && r.total == |uploads|
      && |r.successful| + |r.failed| == r.total
      && (forall k :: 0 <= k < |r.successful| ==> r.successful[k].UploadOk?)
      && (forall k :: 0 <= k < |r.failed| ==> r.failed[k].UploadErr?)
      && (r.success <==> |r.successful| > 0)
      && (r.success <==> exists i :: 0 <= i < |uploads| && uploads[i].transfer.Delivered?)
      && (forall k :: 0 <= k < |r.successful| ==>
            exists i ::
              && 0 <= i < |uploads|
              && uploads[i].transfer == Delivered(r.successful[k].url)
              && r.successful[k].path == StoragePath(userId, Some(BatchPostId(postId, i)), uploads[i].now))
      && (forall k :: 0 <= k < |r.failed| ==>
            exists i :: 0 <= i < |uploads| && uploads[i].transfer == FetchFailed(r.failed[k].error))
    ensures var settled := SettleAll(uploads, userId, postId);
      r.Summary? ==>
        && (forall i :: 0 <= i < |settled| ==> settled[i].Resolved?)
        && r.successful == Keep(Results(settled), true)
        && r.failed == Keep(Results(settled), false)
  {
    var settled := SettleAll(uploads, userId, postId);
    var rejection := FirstRejection(settled);
    if rejection.Some? then BatchFailed(rejection.value)
    else
      var results := Results(settled);
      var successful := Keep(results, true);
      var failed := Keep(results, false);
      KeepPartitions(results);
      SomeDelivered(uploads, userId, postId);
      SuccessesDelivered(uploads, userId, postId);
      FailuresUnread(uploads, userId, postId);
      Summary(|successful| > 0, successful, failed, |results|)
  }
}

=== FILE: text.dfy ===
/** String helpers with JavaScript's semantics: `trim`, `split(sep)[0]`,
    `split(sep)`, template-literal rendering of integers, and the order in
    which the backend compares document ids. */
module Text {

  /** The characters JavaScript's `\s` and `String.prototype.trim` treat as
      white space: WhiteSpace (TAB, VT, FF, ZWNBSP and the Zs category) and
      LineTerminator (LF, CR, LS, PS). */
  const JsSpaces: seq<char> := [
    '\t', '\n', '\U{000B}', '\U{000C}', '\r', ' ', '\U{00A0}', '\U{1680}',
    '\U{2000}', '\U{2001}', '\U{2002}', '\U{2003}', '\U{2004}', '\U{2005}',
    '\U{2006}', '\U{2007}', '\U{2008}', '\U{2009}', '\U{200A}',
    '\U{2028}', '\U{2029}', '\U{202F}', '\U{205F}', '\U{3000}', '\U{FEFF}'
  ]

  predicate IsJsSpace(c: char) {
    OneOfFrom(c, JsSpaces, 0)
  }

  /** `c` is one of `xs[i..]`, looked up entry by entry. */
  predicate OneOfFrom(c: char, xs: seq<char>, i: nat)
    decreases |xs| - i
  {
    i < |xs| && (xs[i] == c || OneOfFrom(c, xs, i + 1))
  }

  /** The entry-by-entry lookup agrees with plain membership. */
  lemma {:induction false} OneOfFromIff(c: char, xs: seq<char>, i: nat)
    requires i <= |xs|
    ensures OneOfFrom(c, xs, i) <==> c in xs[i..]
    decreases |xs| - i
  {
    if i < |xs| {
      OneOfFromIff(c, xs, i + 1);
      assert xs[i..] == [xs[i]] + xs[i + 1..];
    }
  }

  lemma IsJsSpaceIff(c: char)
    ensures IsJsSpace(c) <==> c in JsSpaces
  {
    OneOfFromIff(c, JsSpaces, 0);
    assert JsSpaces[0..] == JsSpaces;
  }

  /** Every character of `s` is white space (vacuously true of ""). */
  predicate IsBlank(s: string) {
    forall k :: 0 <= k < |s| ==> IsJsSpace(s[k])
  }

  /** The index of the first non-space of `s` at or after `i` (`|s|` if
      there is none). */
  function SkipSpaces(s: string, i: nat): (j: nat)
    requires i <= |s|
    ensures i <= j <= |s|
    ensures forall k :: i <= k < j ==> IsJsSpace(s[k])
    ensures j < |s| ==> !IsJsSpace(s[j])
    decreases |s| - i
  {
    if i < |s| && IsJsSpace(s[i]) then SkipSpaces(s, i + 1) else i
  }

  /** The index just past the last non-space of `s[..j]` (0 if there is
      none). */
  function SkipSpacesBack(s: string, j: nat): (e: nat)
    requires j <= |s|
    ensures e <= j
    ensures forall k :: e <= k < j ==> IsJsSpace(s[k])
    ensures e > 0 ==> !IsJsSpace(s[e - 1])
  {
    if j > 0 && IsJsSpace(s[j - 1]) then SkipSpacesBack(s, j - 1) else j
  }

  /** `s.trimStart()`: the suffix left after dropping leading white space. */
  function TrimStart(s: string): (r: string)
    ensures |r| <= |s| && r == s[|s| - |r|..]
    ensures forall k :: 0 <= k < |s| - |r| ==> IsJsSpace(s[k])
    ensures |r| > 0 ==> !IsJsSpace(r[0])
  {
    s[SkipSpaces(s, 0)..]
  }

  /** `s.trimEnd()`: the prefix left after dropping trailing white space. */
  function TrimEnd(s: string): (r: string)
    ensures |r| <= |s| && r == s[..|r|]
    ensures forall k :: |r| <= k < |s| ==> IsJsSpace(s[k])
    ensures |r| > 0 ==> !IsJsSpace(r[|r| - 1])
  {
    s[..SkipSpacesBack(s, |s|)]
  }

  /** How many white-space characters `s` starts with. */
  function LeadingSpaces(s: string): nat
  {
    |s| - |TrimStart(s)|
  }

  /** `s.trim()`: `s` with white space removed at both ends. The result is
      the infix of `s` that starts after its leading white space and has only
      white space after it; it starts and ends with a non-space; it is empty
      exactly when `s` is blank. */
  function Trim(s: string): (r: string)
    ensures var i := LeadingSpaces(s);
      && i + |r| <= |s| && r == s[i..i + |r|]
      && (forall k :: 0 <= k < i ==> IsJsSpace(s[k]))
      && (forall k :: i + |r| <= k < |s| ==> IsJsSpace(s[k]))
    ensures |r| > 0 ==> !IsJsSpace(r[0]) && !IsJsSpace(r[|r| - 1])
    ensures r == [] <==> IsBlank(s)
  {
    var a := TrimStart(s);
    var r := TrimEnd(a);
    InnerSlice(s, a, r);
    TrimBlank(s);
    assert |r| > 0 ==> r[0] == a[0];
    r
  }

  /** A prefix `r` of a suffix `a` of `s`, followed in `a` only by white
      space, is the infix of `s` at `|s| - |a|`, followed in `s` only by
      white space. */
  lemma InnerSlice(s: string, a: string, r: string)
    requires |a| <= |s| && a == s[|s| - |a|..]
    requires |r| <= |a| && r == a[..|r|]
    requires forall k :: |r| <= k < |a| ==> IsJsSpace(a[k])
    ensures var i := |s| - |a|;
      && r == s[i..i + |r|]
      && (forall k :: i + |r| <= k < |s| ==> IsJsSpace(s[k]))
  {
    var i := |s| - |a|;
    forall k | i + |r| <= k < |s| ensures IsJsSpace(s[k]) {
      assert a[k - i] == s[k];
    }
  }

  lemma TrimBlank(s: string)
    ensures TrimEnd(TrimStart(s)) == [] <==> IsBlank(s)
  {
    var a := TrimStart(s);
    var r := TrimEnd(a);
    var i := |s| - |a|;
    if |r| > 0 {
      assert r[0] == s[i];
    } else {
      assert |a| == 0;
    }
  }

  /** Trimming twice is trimming once. */
  lemma TrimIdempotent(s: string)
    ensures Trim(Trim(s)) == Trim(s)
  {
    var t := Trim(s);
    assert SkipSpaces(t, 0) == 0 by {
      if |t| > 0 { assert !IsJsSpace(t[0]); }
    }
    assert TrimStart(t) == t;
    assert SkipSpacesBack(t, |t|) == |t| by {
      if |t| > 0 { assert !IsJsSpace(t[|t| - 1]); }
    }
    assert TrimEnd(t) == t;
  }

  /** `s.split(sep)[0]`: everything before the first `sep`, or all of `s`. */
  function BeforeFirst(s: string, sep: char): (r: string)
    ensures |r| <= |s| && r == s[..|r|]
    ensures sep !in r
    ensures |r| < |s| ==> s[|r|] == sep
  {
    if |s| == 0 || s[0] == sep then []
    else
      var r := BeforeFirst(s[1..], sep);
      assert [s[0]] + r == s[..|r| + 1];
      [s[0]] + r
  }

  /** `s.split(sep)` for a one-character separator. */
  function Split(s: string, sep: char): (r: seq<string>)
    ensures |r| > 0
    ensures forall i :: 0 <= i < |r| ==> sep !in r[i]
    decreases |s|
  {
    var head := BeforeFirst(s, sep);
    if |head| == |s| then [s]
    else [head] + Split(s[|head| + 1..], sep)
  }

  /** `parts.join(sep)`. */
  function Join(parts: seq<string>, sep: char): string {
    if |parts| == 0 then ""
    else if |parts| == 1 then parts[0]
    else parts[0] + [sep] + Join(parts[1..], sep)
  }

  /** Splitting undoes joining, when no part holds the separator. */
  lemma {:induction false} SplitJoin(parts: seq<string>, sep: char)
    requires |parts| > 0
    requires forall i :: 0 <= i < |parts| ==> sep !in parts[i]
    ensures Split(Join(parts, sep), sep) == parts
  {
    if |parts| == 1 {
      SplitNoSeparator(parts[0], sep);
    } else {
      SplitJoin(parts[1..], sep);
      SplitCons(parts[0], sep, Join(parts[1..], sep));
      assert parts == [parts[0]] + parts[1..];
    }
  }

  /** A string without the separator splits into itself alone. */
  lemma SplitNoSeparator(s: string, sep: char)
    requires sep !in s
    ensures Split(s, sep) == [s]
  {
  }

  /** Splitting `a + sep + b`, where `a` holds no separator, peels off `a`. */
  lemma SplitCons(a: string, sep: char, b: string)
    requires sep !in a
    ensures Split(a + [sep] + b, sep) == [a] + Split(b, sep)
  {
    var s := a + [sep] + b;
    var head := BeforeFirst(s, sep);
    BeforeFirstOf(a, sep, b);
    assert head == a;
    assert s[|a| + 1..] == b;
  }

  lemma {:induction false} BeforeFirstOf(a: string, sep: char, b: string)
    requires sep !in a
    ensures BeforeFirst(a + [sep] + b, sep) == a
  {
    var s := a + [sep] + b;
    var r := BeforeFirst(s, sep);
    assert s[|a|] == sep;
    assert r == s[..|a|] == a;
  }

  /** The decimal digit for `d`. */
  function DigitChar(d: nat): char
    requires d < 10
  {
    ['0', '1', '2', '3', '4', '5', '6', '7', '8', '9'][d]
  }

  predicate IsDigit(c: char) { '0' <= c <= '9' }

  function DigitValue(c: char): nat
    requires IsDigit(c)
  {
    (c as int - '0' as int) as nat
  }

  /** `${n}` for a non-negative integer: its shortest decimal form. */
  function NatToString(n: nat): (r: string)
    ensures |r| > 0
    ensures forall k :: 0 <= k < |r| ==> IsDigit(r[k])
    ensures r[0] == '0' ==> n == 0 && r == "0"
  {
    if n < 10 then [DigitChar(n)]
    else NatToString(n / 10) + [DigitChar(n % 10)]
  }

  /** `${n}` for any integer (JavaScript renders negatives with a leading '-'). */
  function IntToString(n: int): (r: string)
    ensures |r| > 0
    ensures (r[0] == '-') <==> n < 0
  {
    if n < 0 then "-" + NatToString(-n) else NatToString(n)
  }

  /** The value of a string of decimal digits. */
  function ParseDigits(s: string): nat
    requires forall k :: 0 <= k < |s| ==> IsDigit(s[k])
  {
    if |s| == 0 then 0
    else 10 * ParseDigits(s[..|s| - 1]) + DigitValue(s[|s| - 1])
  }

  /** Reading back a rendered number gives the number. */
  lemma {:induction false} ParseNatToString(n: nat)
    ensures ParseDigits(NatToString(n)) == n
  {
    var r := NatToString(n);
    if n < 10 {
      assert r[..|r| - 1] == [];
    } else {
      ParseNatToString(n / 10);
      assert r[..|r| - 1] == NatToString(n / 10);
    }
  }

  /** Distinct numbers render to distinct strings. */
  lemma NatToStringInjective(m: nat, n: nat)
    requires NatToString(m) == NatToString(n)
    ensures m == n
  {
    ParseNatToString(m);
    ParseNatToString(n);
  }

  /** Distinct integers render to distinct strings: the sign tells negative
      from non-negative, and the digits after it tell the magnitudes apart. */
  lemma IntToStringInjective(m: int, n: int)
    requires IntToString(m) == IntToString(n)
    ensures m == n
  {
    if m < 0 {
      assert IntToString(m)[1..] == NatToString(-m);
      assert IntToString(n)[1..] == NatToString(-n);
      NatToStringInjective(-m, -n);
    } else {
      NatToStringInjective(m, n);
    }
  }

  /** Code-point lexicographic order on strings (the order the backend uses for
      document ids when two documents share an order-by value). */
  predicate StrLess(a: string, b: string) {
    if |a| == 0 then |b| > 0
    else if |b| == 0 then false
    else if a[0] < b[0] then true
    else if a[0] == b[0] then StrLess(a[1..], b[1..])
    else false
  }

  lemma {:induction false} StrLessIrreflexive(a: string)
    ensures !StrLess(a, a)
  {
    if |a| > 0 { StrLessIrreflexive(a[1..]); }
  }

  lemma {:induction false} StrLessTransitive(a: string, b: string, c: string)
    requires StrLess(a, b) && StrLess(b, c)
    ensures StrLess(a, c)
  {
    if |a| > 0 && |b| > 0 && |c| > 0 && a[0] == b[0] == c[0] {
      StrLessTransitive(a[1..], b[1..], c[1..]);
    }
  }

  lemma {:induction false} StrLessTotal(a: string, b: string)
    requires a != b
    ensures StrLess(a, b) || StrLess(b, a)
  {
    if |a| > 0 && |b| > 0 && a[0] == b[0] {
      assert a == [a[0]] + a[1..] && b == [b[0]] + b[1..];
      StrLessTotal(a[1..], b[1..]);
    }
  }
}

=== FILE: wrappers.dfy ===
/** Tagged results used by every service call in the model. */
module Wrappers {

  /** The conventional Some/None datatype, used for optional JS values. */
  datatype Option<+T> = None | Some(value: T) {
    function GetOr(default: T): T {
      match this
      case Some(v) => v
      case None => default
    }
  }

  /** `{ success: true, ...payload }` or `{ success: false, error: message }`. */
  datatype Result<+T> = Ok(value: T) | Err(error: string)

  /** The outcome of one backend call as decided by the environment:
      `None` when it lands, `Some(message)` when it throws. */
  type Fault = Option<string>
}
